=== FILE: README.md ===
# create-t3-app codemods and installers, modelled in Dafny

create-t3-app scaffolds a Next.js project. Every optional package the user
picks comes with an *installer*. An installer does three things:

- asks the package manager for its dependencies;
- copies template assets into the new project;
- rewrites some of the copied files through *codemods*. A codemod parses
  the file into a syntax tree, finds nodes by shape, changes them, and
  prints the file back.

This project models the core of that machinery:

- **`addImports`**: insert import statements right after a file's last
  import, or at the top when there are none.
- **The tRPC installer**, with its three codemods:
  - the context file gains a session fetch and `session`/`prisma`
    properties;
  - the app router gains an `auth` route;
  - the example router gains a `getAll` procedure.
- **The NextAuth installer**, whose codemod wires the Prisma adapter into
  `authOptions`.
- **The boilerplate helpers**:
  - the choice of landing page (`index.tsx`) for the selected packages;
  - the two codemods on `_app.tsx`. One wraps every `<Component>` in a
    `<SessionProvider>`; the other renames the identifiers under the
    default export to `trpc.withTRPC(...)`.
- **`transformFile`**: read, transform and write one file. The file
  system is a map from paths to parsed programs.

## The modules

| module | file | what it holds |
|---|---|---|
| `Ast` | ast.dfy | syntax trees as `Node(kind, kids)`, paths into them, and the three edits the codemods make (prepend a statement, append a property, wrap an identifier's name) |
| `Locator` | locator.dfy | jscodeshift's `find`: the strict descendants that match a shape, in pre-order. Also chained finds and `.at(0)` |
| `Source` | source.dfy | a file as a sequence of import declarations and code items, plus the "code view" the queries run over |
| `Codemod` | codemod.dfy | `addImports` |
| `Frame` | frame.dfy | appending a property that no query can match leaves every query's answer unchanged |
| `Plan` | plan.dfy | what an installer asks for: packages, copies and file jobs |
| `Trpc` | trpc.dfy | the tRPC installer and its codemods |
| `NextAuth` | next_auth.dfy | the NextAuth installer and its handler codemod |
| `SessionWrap` | session_wrap.dfy | wrapping every `<Component>` element in a `<SessionProvider>` |
| `ExportRename` | export_rename.dfy | renaming every identifier under `export default` |
| `SelectBoilerplate` | select_boilerplate.dfy | the landing-page choice and the `_app.tsx` codemods |
| `Pipeline` | pipeline.dfy | copies, then jobs, against a map of files; `transformFile` |

### How jscodeshift is read

- **`find`** visits the start node's strict descendants in pre-order.
- **Chained finds.** `a.find(X).find(Y)` concatenates the matches below
  each match of `X`, in order, without removing duplicates. `.at(0)`
  takes the head of that list.
- **JSX names are identifiers.** A JSX element name is a `JSXIdentifier`,
  which is a subtype of `Identifier`. The rename under `export default`
  therefore sees JSX names too, and the model gives them the same `Ident`
  kind.
- **Child order.** A node's children are listed in the order the ast-types
  visitor walks its fields. For a JSX element that is: opening element,
  closing element, then children.
- **Replacing `<Component>` elements.** `forEach(p => p.replace(...))`
  collects every path first. Each replacement puts the original node
  object inside the new wrapper, and later replacements of nested
  `<Component>` elements change that same object. The outcome is one
  bottom-up map that wraps every `<Component>` element (`SessionWrap.Wrap`).

### Where the source comment and the code differ

The comment at selectBoilerplate.ts:60 speaks of wrapping the default
export in `withTrpc`, which suggests only the exported name changes. The
code (selectBoilerplate.ts:61-66) renames *every* `Identifier` anywhere
under the `ExportDefaultDeclaration`. That includes parameters, local
names and JSX element names inside an exported function.
The model follows the code; `ExportRename.RenameUnderSingleExport` states
exactly which nodes change.

## Model

| member | source | states |
|---|---|---|
| Codemod.InsertionPoint | src/utils/codemod/addImports.ts:4-10 | the insertion index is 0 exactly when the file has no import; otherwise the item before it is an import and no import follows it |
| Codemod.AddImports | src/utils/codemod/addImports.ts:3-12 | the body grows by exactly the number of statements inserted |
| Codemod.AddImportsPlacement | src/utils/codemod/addImports.ts:4-11 | with an import present, the statements go right after the last import `k` (everything up to `k`, then the statements, then the rest); without one, they are put in front of the whole body |
| Codemod.AddImportsRemovable | src/utils/codemod/addImports.ts:6-11 | the inserted statements sit as one block at the insertion point, and cutting that block out gives back the original body |
| Codemod.AddImportsKeepsNeighbours | src/utils/codemod/addImports.ts:6-11 | every original item keeps its index if it was before the insertion point, and moves by the number of statements otherwise |
| Codemod.AddNoImports | src/utils/codemod/addImports.ts:3-12 | inserting no statements changes nothing |
| Codemod.AddImportsKeepsCode | src/utils/codemod/addImports.ts:6-11 | inserting imports leaves the code items, and so every later query, untouched |
| Codemod.AddImportsLastImport | src/utils/codemod/addImports.ts:7 | after inserting imports, the next insertion point lies right after the inserted block |
| Codemod.AddImportsLayout | src/utils/codemod/addImports.ts:6-7 | a file laid out as imports (possibly none) followed by code becomes its imports, then the new statements, then its code |
| Codemod.AddImportsInSequence | src/utils/codemod/addImports.ts:3-12 | two `addImports` calls, with any import-preserving codemod between them, leave both blocks adjacent and in call order at the original insertion point |
| Locator.FindSound | src/installers/trpc.ts:101-104 | every path `find` reports is a proper descendant of the start node that matches the shape |
| Locator.FindComplete | src/installers/trpc.ts:101-104 | every proper descendant that matches the shape is reported |
| Locator.FindInDocOrder | src/installers/trpc.ts:101-104 | `find` reports its matches in document order, each once |
| Locator.First | src/installers/trpc.ts:101-104 | `.at(0)` of a chained find is present exactly when the chain found something; it is the head of the chain's result, a valid path to a node of the last shape |
| Locator.FirstIsEarliest | src/installers/trpc.ts:101-104 | for a single `find`, `.at(0)` exists once anything matches, and every matching proper descendant is that node or comes after it in document order |
| Source.EditFirst | src/installers/trpc.ts:117-125 | locate-then-mutate: a miss leaves the file as it was; a hit applies the edit at the located node, leaves every node outside that subtree and its ancestors in place, and keeps the imports |
| Ast.UpdateElsewhere | src/installers/trpc.ts:122-125 | an edit at one path leaves every node at a disjoint path as it was |
| Frame.FirstAppendInert | src/installers/trpc.ts:139-147 | after appending a property that no query shape can match, the same `.at(0)` query finds the same object again |
| Trpc.ServerUtilFile | src/installers/trpc.ts:36 | the session-aware server utils are chosen exactly when auth is in use |
| Trpc.ServerUtilsCopiedOnce | src/installers/trpc.ts:36-64 | the server utils are copied from the chosen asset, and no other copy writes their destination |
| Trpc.AuthRouterIffNextAuth | src/installers/trpc.ts:68 | the auth router is copied exactly when NextAuth is in use |
| Trpc.CopiesAndJobsDistinct | src/installers/trpc.ts:61-90 | no two concurrent copies share a destination, and no file is transformed twice |
| Trpc.JobsHaveCopies | src/installers/trpc.ts:61-90 | every file the installer transforms is one of its own copies |
| Trpc.JobsIff | src/installers/trpc.ts:71-90 | the context file is always transformed first; the index router is transformed exactly when auth is in use, and the example router exactly when Prisma is |
| Trpc.WithSessionFetch | src/installers/trpc.ts:101-110 | with a block under `createContext`, the session fetch becomes the first statement of the first such block, every node outside it and its ancestors is unchanged, and each ancestor keeps its kind and number of children; without one, the file is unchanged |
| Trpc.WithContextProperty | src/installers/trpc.ts:112-125 | with a returned object under `createContext`, the shorthand property becomes the last property of the first such object, every node outside it and its ancestors is unchanged, and each ancestor keeps its kind and number of children; without one, the file is unchanged |
| Trpc.ContextPropertyKeepsTarget | src/installers/trpc.ts:117-125 | after the `session` property is pushed, the same query locates the same object again |
| Trpc.ContextSessionThenPrisma | src/installers/trpc.ts:71-78 | with auth and Prisma, the context object ends with `session` followed by `prisma`, on the object the auth codemod found |
| Trpc.ContextImportsInOrder | src/installers/trpc.ts:93-131 | with auth and Prisma, the two NextAuth imports and then the Prisma import sit together right after the original last import |
| Trpc.ContextObjectMissBoth | src/installers/trpc.ts:71-78 | with auth and Prisma, when no context object is found after the session fetch, neither property is added: the result is that file plus the Prisma import |
| Trpc.ContextMissAddsImportsOnly | src/installers/trpc.ts:93-148 | without a `createContext` declarator the context callback only adds the imports of the selected packages |
| Trpc.IndexRouterTransform | src/installers/trpc.ts:150-165 | adds the `authRouter` import; on a hit appends `auth: authRouter` as the last property of the first object under `appRouter`; every node outside that object and its ancestors is unchanged, and each ancestor keeps its kind and number of children; on a miss the code is unchanged |
| Trpc.ExampleRouterTransform | src/installers/trpc.ts:167-192 | adds no import; on a hit appends the `getAll` procedure as the last property of the first object under `exampleRouter`; every node outside that object and its ancestors is unchanged, and each ancestor keeps its kind and number of children; on a miss the code is unchanged |
| NextAuth.Dependencies | src/installers/next-auth.ts:14-20 | two packages are always requested; the second is the Prisma adapter exactly when Prisma is in use and the empty string otherwise |
| NextAuth.HandlerTransform | src/installers/next-auth.ts:46-75 | adds the two imports; on a hit appends `adapter: PrismaAdapter(prisma)` as the last property of the first object under `authOptions`; every node outside that object and its ancestors is unchanged, and each ancestor keeps its kind and number of children; on a miss the code is unchanged |
| NextAuth.HandlerImportsPlaced | src/installers/next-auth.ts:48-57 | the adapter import, with its line comment, and then the Prisma import sit right after the original last import |
| NextAuth.TargetIsInitialiser | src/installers/next-auth.ts:60-64 | when `authOptions` is initialised with an object literal and its id holds none, that initialiser is the object that gets extended |
| NextAuth.HandlerMissAddsImportsOnly | src/installers/next-auth.ts:57-72 | without an `authOptions` declarator the handler only gains the imports |
| NextAuth.InstallerWellFormed | src/installers/next-auth.ts:39-76 | the handler codemod runs exactly when Prisma is in use, on a file the installer copies, and the copies have distinct destinations |
| SelectBoilerplate.IndexFile | src/helpers/selectBoilerplate.ts:81-93 | for each landing page, the exact selections that pick it, and that none is picked exactly when neither tRPC nor tailwind is in use |
| SelectBoilerplate.IndexCopies | src/helpers/selectBoilerplate.ts:95-99 | at most one copy; there is one exactly when a page was chosen, and it goes from that page's asset to `src/pages/index.tsx` |
| SelectBoilerplate.AuthWithPrismaFallsBack | src/helpers/selectBoilerplate.ts:82-90 | with NextAuth and Prisma, the page is the one chosen without NextAuth |
| SelectBoilerplate.WithoutTrpcOnlyTailwind | src/helpers/selectBoilerplate.ts:91-93 | without tRPC, only tailwind affects the choice, and a page is chosen exactly when tailwind is in use |
| SelectBoilerplate.IndexFileIsGrid | src/helpers/selectBoilerplate.ts:81-93 | the `if` chain agrees with a grid reference of auth showcase × tailwind on every selection |
| SelectBoilerplate.NextAuthTransform | src/helpers/selectBoilerplate.ts:31-53 | adds the `SessionProvider` import, and the code becomes the wrap of every `Component` element |
| SelectBoilerplate.TrpcTransform | src/helpers/selectBoilerplate.ts:55-67 | adds the `trpc` import, and the code becomes the rename under the default export |
| SelectBoilerplate.AppTransformsAddOneImport | src/helpers/selectBoilerplate.ts:32-58 | each `_app.tsx` codemod adds exactly one item, its import, at the insertion point; with it taken out, every other item keeps its position and every import is untouched |
| SelectBoilerplate.AppCallbackOrder | src/helpers/selectBoilerplate.ts:21-28 | the `_app.tsx` callback runs the next-auth codemod before the tRPC one, each exactly when its package is used, and leaves the file alone when neither is |
| SelectBoilerplate.AppBothComposes | src/helpers/selectBoilerplate.ts:21-28 | with both packages, the code is wrapped first and renamed second |
| SelectBoilerplate.AppImportsInOrder | src/helpers/selectBoilerplate.ts:21-28 | with both packages, the `SessionProvider` import and then the `trpc` import sit right after the original last import |
| SelectBoilerplate.NoComponentImportOnly | src/helpers/selectBoilerplate.ts:37-52 | without a `Component` element the NextAuth codemod changes no code |
| SelectBoilerplate.NoExportImportOnly | src/helpers/selectBoilerplate.ts:61-66 | without a default export the tRPC codemod changes no code |
| SelectBoilerplate.TrpcRenamesUnderExport | src/helpers/selectBoilerplate.ts:61-66 | in a file with one default export, exactly the identifiers strictly below it are renamed to `trpc.withTRPC(name)`; every other node keeps its kind, and no node gains or loses children |
| SelectBoilerplate.NextAuthWrapsEachComponent | src/helpers/selectBoilerplate.ts:37-52 | no `Component` element is lost, and the number of `SessionProvider` elements grows by exactly the number of `Component` elements |
| SessionWrap.SessionProvider | src/helpers/selectBoilerplate.ts:41-50 | the wrapper is a `SessionProvider` element, not a `Component` one: its opening element carries the one attribute `session={pageProps.session}`, a closing `SessionProvider` element follows, and its children are a newline, the wrapped element and a newline |
| SessionWrap.Wrap | src/helpers/selectBoilerplate.ts:37-52 | a `Component` element is replaced by a wrapper that holds an element of the same kind and arity; any other node keeps its kind and arity |
| SessionWrap.WrapMatches | src/helpers/selectBoilerplate.ts:37-52 | after the wrap, a node is a `SessionProvider` element exactly when it was a `Component` element or already a `SessionProvider`; names of other elements are kept |
| SessionWrap.WrapGuarded | src/helpers/selectBoilerplate.ts:37-52 | after the wrap, every `Component` element anywhere in the tree is the held child of a `SessionProvider` wrapper |
| SessionWrap.UnwrapWrap | src/helpers/selectBoilerplate.ts:37-52 | in a tree with no `SessionProvider` element yet, removing the wrappers gives back the original tree |
| SessionWrap.NoComponentNoChange | src/helpers/selectBoilerplate.ts:37-52 | a tree without a `Component` element is left unchanged |
| SessionWrap.WrapAllCounts | src/helpers/selectBoilerplate.ts:37-52 | the number of `Component` elements is kept, and the number of `SessionProvider` elements grows by exactly that number |
| ExportRename.Renamed | src/helpers/selectBoilerplate.ts:65 | an identifier `n` becomes `callee(n)`; any other kind is untouched |
| ExportRename.RenameAt | src/helpers/selectBoilerplate.ts:64-65 | one rename changes the kind of the node at its path, and nothing else: not the set of valid paths, not any other node's kind, not any child count |
| ExportRename.RenameAllKinds | src/helpers/selectBoilerplate.ts:61-66 | after renaming every reported path, each node has been renamed once for every time its path was reported |
| ExportRename.SingleExportTargets | src/helpers/selectBoilerplate.ts:61-63 | with one default export, the chained find reports each identifier below it once |
| ExportRename.TargetIff | src/helpers/selectBoilerplate.ts:61-63 | with one default export, a path is reported exactly when it points at an identifier strictly below that export |
| ExportRename.RenameUnderSingleExport | src/helpers/selectBoilerplate.ts:61-66 | with one default export, exactly the identifiers strictly below it are wrapped in `trpc.withTRPC(...)`, and the tree keeps its shape |
| ExportRename.NoExportNoRename | src/helpers/selectBoilerplate.ts:61-66 | without a default export nothing is renamed |
| ExportRename.ExportOfName | src/helpers/selectBoilerplate.ts:61-66 | `export default App` becomes `export default trpc.withTRPC(App)` |
| Pipeline.TransformFile | src/utils/codemod/transformFile.ts:5-12 | a missing file is an error naming it; otherwise only that file changes, to its callback's output |
| Pipeline.RunJobsOk | src/installers/trpc.ts:71-90 | the awaited `transformFile` calls all succeed exactly when every target file exists, and no file appears or disappears |
| Pipeline.RunJobsEffect | src/installers/trpc.ts:71-90 | with one job per file, each target ends up as its callback applied to its original content, and every other file is unchanged |
| Pipeline.CopyOne | src/installers/trpc.ts:62 | a copy fails exactly when its asset is missing, and the error names that asset; otherwise the destination is added or overwritten with the asset, and every other file is unchanged |
| Pipeline.AppJobEffect | src/helpers/selectBoilerplate.ts:13-28 | `transformAppFile` fails exactly when `_app.tsx` is missing, naming it; otherwise no file is added or removed, only `_app.tsx` changes, and it is transformed once, by the callback closing over the NextAuth and tRPC flags |
| Pipeline.CopyAllEffect | src/installers/trpc.ts:61-69 | after the copies, the files are the old ones plus the destinations; each destination holds its asset, and every other file is unchanged |
| Pipeline.CopyOrderIrrelevant | src/installers/trpc.ts:61-69 | with distinct destinations and every asset present, any order of the same copies gives the same files, so the concurrent `Promise.all` then has one outcome |
| Pipeline.InstallerEffect | src/installers/trpc.ts:61-90 | for a well-formed plan, every transformed file ends up as its callback applied to the asset copied there |
| Pipeline.InstallersWellFormed | src/installers/next-auth.ts:39-76 | both installers' plans are well formed for every selection: jobs target copies, destinations are distinct, one job per file |

## Left out

- Parsing and printing (`updateAST`, `toSource`): a file is its parsed
  program. Formatting, comments other than the adapter import's, and parse
  errors are not modelled.
- Reading and writing files (`fs.readFile`, `fs.writeFile`, `fs.copy`): a
  map from paths to programs stands in for them. A missing file is the
  only error modelled.
- The concurrent `Promise.all` of copies: modelled as a sequential fold.
  `Pipeline.CopyOrderIrrelevant` shows that the order does not matter when
  destinations are distinct and every asset is present.
- A failing copy batch: the model stops at the first missing asset in list
  order and reports it, keeping no partial writes. The real `Promise.all`
  rejects with whichever `fs.copy` fails first in time, and the other
  copies still run and write their files.
- `runPkgManagerInstall`: only its arguments are modelled
  (`Trpc.Dependencies`, `NextAuth.Dependencies`); running the package
  manager is outside the model.
- `path.join` with `PKG_ROOT` and the project directory: paths are kept
  relative to those two roots.
- `packages?` being undefined: every installer is modelled with a full
  package selection.
- The statements built from template strings and `j.identifier(...)` calls
  are opaque atoms. The model does not parse their text.
- Import declarations nested inside TypeScript `declare module` blocks:
  only top-level imports are found by `addImports`.
- A JSX element's `name`, `attributes` and `selfClosing` fields: they are
  not children of the element in the model, as ast-types does not list
  them among the visited fields.
- Codemod.AddImports: its own contract states only the length; where the
  statements go is stated by `Codemod.AddImportsPlacement`, to keep each
  caller's proof small.
- ExportRename.RenameUnderSingleExport: stated for files with exactly one
  default export (an ES module cannot have two); with several, a nested
  identifier can be renamed once per enclosing export, which
  `ExportRename.RenameAllKinds` describes.
- Trpc.ContextSessionThenPrisma: states the result only when the context
  object is found. When it is not (for instance `createContext` returns a
  call rather than an object literal), `Trpc.ContextObjectMissBoth` states
  the outcome; `Trpc.ContextMissAddsImportsOnly` covers the narrower case
  of a file with no `createContext` declarator at all.

=== FILE: ast.dfy ===
/** The abstract syntax tree the codemods work on.

    A node is a kind tag plus its children, in the order the tree visitor
    walks them.  Every name that is an Identifier node in the parsed source
    (a declarator's id, a property's key and value, a JSX element's tag) is an
    `Ident` child here, so that searching for identifiers sees exactly the
    nodes the real traversal sees.  Statements that the codemods create from
    text templates are opaque `Stmt` atoms. */
module Ast {

  datatype Kind =
    | Root                        // the virtual root over a file's top-level code
    | Ident(name: string)         // Identifier, and JSXIdentifier (its subtype)
    | Declarator                  // VariableDeclarator: kids = [id, init]
    | Block                       // BlockStatement: kids = its statements
    | Return                      // ReturnStatement
    | Object                      // ObjectExpression: kids = its properties
    | Property(shorthand: bool)   // ObjectProperty: kids = [key, value]
    | Call                        // CallExpression: kids = [callee, args...]
    | Arrow                       // ArrowFunctionExpression: kids = [params..., body]
    | ObjectPattern               // ObjectPattern: kids = its properties
    | ExportDefault               // ExportDefaultDeclaration
    | JsxElement                  // kids = [opening, closing?, children...]
    | JsxOpening                  // kids = [name, attributes...]
    | JsxClosing                  // kids = [name]
    | JsxAttribute                // kids = [name, value]
    | JsxExprContainer            // kids = [expression]
    | JsxText(text: string)
    | Stmt(text: string)          // an opaque statement built from a template
    | Other(tag: string)          // any other syntax, with its children

  datatype Node = Node(kind: Kind, kids: seq<Node>)

  /** A bare identifier, as `j.identifier(name)` builds it. */
  function Name(name: string): Node {
    Node(Ident(name), [])
  }

  /** `{ name }`: a shorthand object property (key and value are both the
      identifier). */
  function Shorthand(name: string): Node {
    Node(Property(true), [Name(name), Name(name)])
  }

  /** `key: value`, as `j.objectProperty(j.identifier(key), value)` builds it. */
  function Prop(key: string, value: Node): Node {
    Node(Property(false), [Name(key), value])
  }

  /** A position in a tree: the child indices to follow from the root. */
  type Path = seq<nat>

  predicate ValidPath(n: Node, p: Path)
    decreases |p|
  {
    |p| == 0 || (p[0] < |n.kids| && ValidPath(n.kids[p[0]], p[1..]))
  }

  function Get(n: Node, p: Path): Node
    requires ValidPath(n, p)
    decreases |p|
  {
    if |p| == 0 then n else Get(n.kids[p[0]], p[1..])
  }

  predicate IsPrefix(a: Path, b: Path) {
    |a| <= |b| && b[..|a|] == a
  }

  /** Neither path lies inside the subtree of the other. */
  predicate Disjoint(a: Path, b: Path) {
    !IsPrefix(a, b) && !IsPrefix(b, a)
  }

  /** The in-place mutations the codemods perform on one located node. */
  datatype Edit =
    | Prepend(x: Node)            // `body.unshift(x)` on a block
    | Append(x: Node)             // `properties.push(x)` on an object literal
    | WrapName(callee: string)    // `node.name = callee(<name>)` on an identifier

  function Apply(e: Edit, n: Node): Node {
    match e
    case Prepend(x) => Node(n.kind, [x] + n.kids)
    case Append(x) => Node(n.kind, n.kids + [x])
    case WrapName(c) =>
      if n.kind.Ident? then Node(Ident(c + "(" + n.kind.name + ")"), n.kids) else n
  }

  /** The tree with the node at `p` replaced by the edited node. */
  function Update(n: Node, p: Path, e: Edit): (r: Node)
    requires ValidPath(n, p)
    ensures |p| > 0 ==> r.kind == n.kind && |r.kids| == |n.kids|
    ensures |p| > 0 ==> forall i | 0 <= i < |n.kids| && i != p[0] :: r.kids[i] == n.kids[i]
    decreases |p|
  {
    if |p| == 0 then Apply(e, n)
    else Node(n.kind, n.kids[p[0] := Update(n.kids[p[0]], p[1..], e)])
  }

  lemma {:induction false} GetConcat(n: Node, a: Path, b: Path)
    requires ValidPath(n, a)
    ensures ValidPath(n, a + b) <==> ValidPath(Get(n, a), b)
    ensures ValidPath(n, a + b) ==> Get(n, a + b) == Get(Get(n, a), b)
    decreases |a|
  {
    if |a| > 0 {
      assert (a + b)[0] == a[0];
      assert (a + b)[1..] == a[1..] + b;
      GetConcat(n.kids[a[0]], a[1..], b);
    } else {
      assert a + b == b;
    }
  }

  /** The edited node sits at the path of the edit. */
  lemma {:induction false} UpdateAt(n: Node, p: Path, e: Edit)
    requires ValidPath(n, p)
    ensures ValidPath(Update(n, p, e), p)
    ensures Get(Update(n, p, e), p) == Apply(e, Get(n, p))
    decreases |p|
  {
    if |p| > 0 {
      UpdateAt(n.kids[p[0]], p[1..], e);
    }
  }

  /** Nothing outside the edited subtree and its ancestors changes. */
  lemma {:induction false} UpdateElsewhere(n: Node, p: Path, e: Edit, q: Path)
    requires ValidPath(n, p) && ValidPath(n, q)
    requires Disjoint(p, q)
    ensures ValidPath(Update(n, p, e), q)
    ensures Get(Update(n, p, e), q) == Get(n, q)
    decreases |p|
  {
    assert q[..0] == [] && p[..0] == [];
    if p[0] != q[0] {
    } else {
      PrefixTail(p, q);
      PrefixTail(q, p);
      UpdateElsewhere(n.kids[p[0]], p[1..], e, q[1..]);
    }
  }

  lemma PrefixTail(a: Path, b: Path)
    requires |a| > 0 && |b| > 0 && a[0] == b[0]
    ensures IsPrefix(a[1..], b[1..]) <==> IsPrefix(a, b)
  {
    if IsPrefix(a[1..], b[1..]) {
      assert b[..|a|] == [b[0]] + b[1..][..|a| - 1];
      assert a == [a[0]] + a[1..];
    }
    if IsPrefix(a, b) {
      assert b[1..][..|a| - 1] == b[..|a|][1..];
    }
  }

  /** An ancestor of the edited node holds the same edit, relative to itself. */
  lemma {:induction false} UpdateAncestor(n: Node, p: Path, e: Edit, a: Path)
    requires ValidPath(n, p)
    requires IsPrefix(a, p)
    ensures ValidPath(n, a) && ValidPath(Update(n, p, e), a)
    ensures ValidPath(Get(n, a), p[|a|..])
    ensures Get(Update(n, p, e), a) == Update(Get(n, a), p[|a|..], e)
    decreases |a|
  {
    if |a| > 0 {
      assert a[0] == p[0];
      assert IsPrefix(a[1..], p[1..]);
      assert p[1..][|a| - 1..] == p[|a|..];
      UpdateAncestor(n.kids[p[0]], p[1..], e, a[1..]);
    }
  }
}

=== FILE: codemod.dfy ===
/** `addImports`: put new statements after the file's last import
    declaration, or at the very start of the body when it has none. */
module Codemod {
  import opened Ast
  import opened Locator
  import opened Source

  /** The index of the last import item, or -1 when there is none. */
  function LastImport(body: seq<Item>): (k: int)
    ensures -1 <= k < |body|
    ensures k >= 0 ==> body[k].ImportItem?
    ensures forall j | k < j < |body| :: !body[j].ImportItem?
  {
    if |body| == 0 then -1
    else if body[|body| - 1].ImportItem? then |body| - 1
    else
      var k := LastImport(body[..|body| - 1]);
      assert forall j | k < j < |body| - 1 :: body[..|body| - 1][j] == body[j];
      k
  }

  /** Where `AddImports` puts its block: just past the last import, or 0. */
  function InsertionPoint(body: seq<Item>): (k: nat)
    ensures k <= |body|
    ensures HasImport(body) <==> k > 0
    ensures k > 0 ==> body[k - 1].ImportItem?
    ensures forall j | k <= j < |body| :: !body[j].ImportItem?
  {
    LastImport(body) + 1
  }

  /** `addImports`: the statements go, in the order given and without
      deduplication, right behind the last import declaration, or in front
      of the whole body when the file has none. */
  function AddImports(prog: Program, stmts: seq<Item>): (r: Program)
    ensures |r.body| == |prog.body| + |stmts|
  {
    var k := InsertionPoint(prog.body);
    Program(prog.body[..k] + stmts + prog.body[k..])
  }

  /** The block lands right after the last import, or at the front. */
  lemma AddImportsPlacement(prog: Program, stmts: seq<Item>)
    ensures
      var r := AddImports(prog, stmts);
      && (HasImport(prog.body) ==>
        exists k | 0 <= k < |prog.body| ::
          && prog.body[k].ImportItem?
          && (forall j | k < j < |prog.body| :: !prog.body[j].ImportItem?)
          && r.body == prog.body[..k + 1] + stmts + prog.body[k + 1..])
      && (!HasImport(prog.body) ==> r.body == stmts + prog.body)
  {
    var k := InsertionPoint(prog.body);
    if k > 0 {
      assert prog.body[..(k - 1) + 1] == prog.body[..k];
    } else {
      assert prog.body[..0] == [] && prog.body[0..] == prog.body;
    }
  }

  /** The inserted block sits, in the order given, at the insertion point,
      and removing it gives back the original body: existing statements keep
      their contents and relative order. */
  lemma AddImportsRemovable(prog: Program, stmts: seq<Item>)
    ensures
      var k := InsertionPoint(prog.body);
      var b := AddImports(prog, stmts).body;
      && b[k..k + |stmts|] == stmts
      && b[..k] + b[k + |stmts|..] == prog.body
  {
    var k := InsertionPoint(prog.body);
    var b := AddImports(prog, stmts).body;
        assert b[..k] == prog.body[..k];
    assert b[k + |stmts|..] == prog.body[k..];
  }

  /** Every existing top-level statement stays ahead of the inserted block
      when it was an import up to the last one, and behind it otherwise. */
  lemma AddImportsKeepsNeighbours(prog: Program, stmts: seq<Item>, i: nat)
    requires i < |prog.body|
    ensures
      var b := AddImports(prog, stmts).body;
      var k := InsertionPoint(prog.body);
      && (i < k ==> b[i] == prog.body[i])
      && (i >= k ==> b[i + |stmts|] == prog.body[i])
  {
    AddImportsRemovable(prog, stmts);
    var b := AddImports(prog, stmts).body;
    var k := InsertionPoint(prog.body);
    if i >= k {
      assert (b[..k] + b[k + |stmts|..])[i] == b[i + |stmts|];
    }
  }

  /** An empty statement list leaves the body unchanged. */
  lemma AddNoImports(prog: Program)
    ensures AddImports(prog, []) == prog
  {
    AddImportsRemovable(prog, []);
  }

  /** Adding import declarations does not touch the code: every locator
      finds what it found before. */
  lemma AddImportsKeepsCode(prog: Program, stmts: seq<Item>)
    requires AllImports(stmts)
    ensures View(AddImports(prog, stmts)) == View(prog)
  {
    CodesInsertImports(prog.body, InsertionPoint(prog.body), stmts);
  }

  lemma CodesInsertImports(b: seq<Item>, k: nat, stmts: seq<Item>)
    requires k <= |b| && AllImports(stmts)
    ensures Codes(b[..k] + stmts + b[k..]) == Codes(b)
  {
    CodesOfImports(stmts);
    CodesAround(b[..k], stmts, b[k..]);
    CodesConcat(b[..k], b[k..]);
    assert b[..k] + b[k..] == b;
  }

  lemma CodesAround(x: seq<Item>, m: seq<Item>, y: seq<Item>)
    requires Codes(m) == []
    ensures Codes(x + m + y) == Codes(x) + Codes(y)
  {
    CodesConcat(x, m);
    CodesConcat(x + m, y);
    assert Codes(x) + [] == Codes(x);
  }

  /** After inserting a list of imports, the insertion point lies right
      behind it (for a non-empty list, the last import of the file is the
      last statement passed); a later `AddImports` call therefore puts its
      block right behind this one. */
  lemma AddImportsLastImport(prog: Program, stmts: seq<Item>)
    requires AllImports(stmts)
    ensures InsertionPoint(AddImports(prog, stmts).body) == InsertionPoint(prog.body) + |stmts|
  {
    if |stmts| == 0 {
      AddNoImports(prog);
    } else {
      var k := InsertionPoint(prog.body);
      var b := AddImports(prog, stmts).body;
      AddImportsRemovable(prog, stmts);
      var m := InsertionPoint(b);
      assert b[k + |stmts| - 1] == stmts[|stmts| - 1];
      forall j | k + |stmts| <= j < |b|
        ensures !b[j].ImportItem?
      {
        AddImportsKeepsNeighbours(prog, stmts, j - |stmts|);
      }
    }
  }

  /** A file laid out as a run of imports (possibly none) followed by code
      keeps that layout, with the new imports last among the imports. */
  lemma AddImportsLayout(imports: seq<Item>, code: seq<Item>, stmts: seq<Item>)
    requires AllImports(imports)
    requires forall i | 0 <= i < |code| :: code[i].Code?
    ensures AddImports(Program(imports + code), stmts).body == imports + stmts + code
  {
    var b := imports + code;
    if |imports| > 0 {
      assert b[|imports| - 1].ImportItem?;
    }
    var k := InsertionPoint(b);
    assert forall j | |imports| <= j < |b| :: b[j] == code[j - |imports|];
    assert b[..k] == imports && b[k..] == code;
  }

  /** Rewriting code items never moves the insertion point. */
  lemma {:induction false} InsertionPointSameImports(a: seq<Item>, b: seq<Item>)
    requires SameImports(a, b)
    ensures InsertionPoint(a) == InsertionPoint(b)
    decreases |a|
  {
    if |a| > 0 {
      var a', b' := a[..|a| - 1], b[..|b| - 1];
      assert SameImports(a', b') by {
        assert forall i | 0 <= i < |a'| :: a'[i] == a[i] && b'[i] == b[i];
      }
      InsertionPointSameImports(a', b');
    }
  }

  /** Two `AddImports` calls with only code rewrites in between put their
      blocks next to each other, first block first, at the place the first
      call chose. */
  lemma AddImportsInSequence(prog: Program, s1: seq<Item>, mid: Program, s2: seq<Item>)
    requires AllImports(s1)
    requires SameImports(AddImports(prog, s1).body, mid.body)
    ensures
      var k := InsertionPoint(prog.body);
      var b := AddImports(mid, s2).body;
      && k + |s1| + |s2| <= |b|
      && b[k..k + |s1| + |s2|] == s1 + s2
  {
    var k := InsertionPoint(prog.body);
    var m := k + |s1|;
    AddImportsLastImport(prog, s1);
    InsertionPointSameImports(AddImports(prog, s1).body, mid.body);
    MidKeepsBlock(prog, s1, mid);
    Adjacent(mid.body, k, s1, s2);
  }

  lemma Adjacent(c: seq<Item>, k: nat, s1: seq<Item>, s2: seq<Item>)
    requires k + |s1| <= |c| && c[k..k + |s1|] == s1
    ensures
      var m := k + |s1|;
      var b := c[..m] + s2 + c[m..];
      b[k..m + |s2|] == s1 + s2
  {
    var m := k + |s1|;
    var b := c[..m] + s2 + c[m..];
    assert b[k..m] == s1;
    assert b[m..m + |s2|] == s2;
    assert b[k..m + |s2|] == b[k..m] + b[m..m + |s2|];
  }

  lemma MidKeepsBlock(prog: Program, s1: seq<Item>, mid: Program)
    requires AllImports(s1)
    requires SameImports(AddImports(prog, s1).body, mid.body)
    ensures
      var k := InsertionPoint(prog.body);
      k + |s1| <= |mid.body| && mid.body[k..k + |s1|] == s1
  {
    var k := InsertionPoint(prog.body);
    var b1 := AddImports(prog, s1).body;
    AddImportsRemovable(prog, s1);
    forall i | k <= i < k + |s1|
      ensures mid.body[i] == s1[i - k]
    {
      assert b1[i] == s1[i - k];
    }
  }

  /** Two import blocks added one after the other, each followed by a codemod
      that keeps the imports, stay side by side in call order. */
  lemma TwoBlocksKept(prog: Program, s1: seq<Item>, mid: Program, s2: seq<Item>, r: Program)
    requires AllImports(s1) && AllImports(s2)
    requires SameImports(AddImports(prog, s1).body, mid.body)
    requires SameImports(AddImports(mid, s2).body, r.body)
    ensures
      var k := InsertionPoint(prog.body);
      && k + |s1| + |s2| <= |r.body|
      && r.body[k..k + |s1| + |s2|] == s1 + s2
  {
    var k := InsertionPoint(prog.body);
    AddImportsInSequence(prog, s1, mid, s2);
    AllImportsConcat(s1, s2);
    SameImportsKeep(AddImports(mid, s2).body, r.body, k, s1 + s2);
  }

  /** `TwoBlocksKept` for two single imports. */
  lemma TwoImportsKept(prog: Program, x: Item, mid: Program, y: Item, r: Program)
    requires x.ImportItem? && y.ImportItem?
    requires SameImports(AddImports(prog, [x]).body, mid.body)
    requires SameImports(AddImports(mid, [y]).body, r.body)
    ensures
      var k := InsertionPoint(prog.body);
      && k + 2 <= |r.body|
      && r.body[k..k + 2] == [x, y]
  {
    TwoBlocksKept(prog, [x], mid, [y], r);
    assert [x] + [y] == [x, y];
  }

  /** Add imports that leave the code alone, then append `x` to the first
      node the query locates: the shape of every codemod that imports what
      it inserts. */
  function ImportThenAppend(prog: Program, stmts: seq<Item>, q: seq<Shape>, x: Node): (r: Program)
    requires |q| > 0 && View(AddImports(prog, stmts)) == View(prog)
    ensures SameImports(AddImports(prog, stmts).body, r.body)
    ensures First(View(prog), q).None? ==> r == AddImports(prog, stmts)
    ensures EditedFirst(View(prog), View(r), q, Append(x))
  {
    EditFirst(AddImports(prog, stmts), q, Append(x))
  }
}

=== FILE: export_rename.dfy ===
/** The `_app.tsx` tRPC codemod's rename: every identifier the nested
    `find(ExportDefaultDeclaration).find(Identifier)` reports gets its name
    wrapped, `name` becoming `trpc.withTRPC(name)`, once per time it is
    reported. */
module ExportRename {
  import opened Ast
  import opened Locator

  const Callee := "trpc.withTRPC"
  const Targets: seq<Shape> := [AnyExportDefault, AnyIdent]

  /** The kind after one rename: identifiers are wrapped, nothing else
      changes. */
  function Renamed(k: Kind, c: string): (r: Kind)
    ensures r.Ident? <==> k.Ident?
    ensures k.Ident? ==> r.name == c + "(" + k.name + ")"
    ensures !k.Ident? ==> r == k
  {
    if k.Ident? then Ident(c + "(" + k.name + ")") else k
  }

  /** The kind after `m` renames, the first one innermost. */
  function RenamedTimes(k: Kind, c: string, m: nat): Kind
    decreases m
  {
    if m == 0 then k else RenamedTimes(Renamed(k, c), c, m - 1)
  }

  /** A rename at `p` changes the kind of the node at `p` and nothing else:
      every path stays valid and every node keeps its number of children. */
  lemma {:induction false} RenameAt(n: Node, p: Path, c: string, q: Path)
    requires ValidPath(n, p)
    ensures ValidPath(Update(n, p, WrapName(c)), q) <==> ValidPath(n, q)
    ensures ValidPath(n, q) ==>
      Get(Update(n, p, WrapName(c)), q).kind
        == (if q == p then Renamed(Get(n, q).kind, c) else Get(n, q).kind)
    ensures ValidPath(n, q) ==> |Get(Update(n, p, WrapName(c)), q).kids| == |Get(n, q).kids|
    decreases |p|
  {
    var r := Update(n, p, WrapName(c));
    if |p| == 0 {
      assert r.kids == n.kids;
    } else if |q| > 0 && q[0] == p[0] {
      RenameAt(n.kids[p[0]], p[1..], c, q[1..]);
      assert q == [q[0]] + q[1..] && p == [p[0]] + p[1..];
    }
  }

  lemma RenameKeepsPaths(v: Node, p: Path, c: string, ps: seq<Path>)
    requires ValidPath(v, p)
    requires forall q | q in ps :: ValidPath(v, q)
    ensures forall q | q in ps :: ValidPath(Update(v, p, WrapName(c)), q)
  {
    forall q | q in ps
      ensures ValidPath(Update(v, p, WrapName(c)), q)
    {
      RenameAt(v, p, c, q);
    }
  }

  /** `forEach` over the reported paths, renaming each in turn. */
  function RenameAll(v: Node, c: string, ps: seq<Path>): Node
    requires forall p | p in ps :: ValidPath(v, p)
    decreases |ps|
  {
    if |ps| == 0 then v
    else
      var v' := Update(v, ps[0], WrapName(c));
      RenameKeepsPaths(v, ps[0], c, ps[1..]);
      RenameAll(v', c, ps[1..])
  }

  /** After the renames, a node has been renamed as many times as its path
      was reported; the shape of the tree is unchanged. */
  lemma {:induction false} RenameAllKinds(v: Node, c: string, ps: seq<Path>, q: Path)
    requires forall p | p in ps :: ValidPath(v, p)
    ensures ValidPath(RenameAll(v, c, ps), q) <==> ValidPath(v, q)
    ensures ValidPath(v, q) ==>
      Get(RenameAll(v, c, ps), q).kind == RenamedTimes(Get(v, q).kind, c, multiset(ps)[q])
    ensures ValidPath(v, q) ==> |Get(RenameAll(v, c, ps), q).kids| == |Get(v, q).kids|
    decreases |ps|
  {
    if |ps| > 0 {
      var v' := Update(v, ps[0], WrapName(c));
      RenameKeepsPaths(v, ps[0], c, ps[1..]);
      RenameAt(v, ps[0], c, q);
      RenameAllKinds(v', c, ps[1..], q);
      assert ps == [ps[0]] + ps[1..];
      assert multiset(ps) == multiset{ps[0]} + multiset(ps[1..]);
    }
  }

  /** The rename step of the codemod on a tree; the tree keeps its shape. */
  function RenameExport(v: Node): (r: Node)
    ensures r.kind == v.kind && |r.kids| == |v.kids|
  {
    RenameAllKinds(v, Callee, Coll(v, Targets), []);
    assert multiset(Coll(v, Targets))[[]] == 0;
    RenameAll(v, Callee, Coll(v, Targets))
  }

  predicate Distinct(ps: seq<Path>) {
    forall i, j | 0 <= i < j < |ps| :: ps[i] != ps[j]
  }

  lemma DocOrderDistinct(ps: seq<Path>)
    requires InDocOrder(ps)
    ensures Distinct(ps)
  {
    forall i, j | 0 <= i < j < |ps|
      ensures ps[i] != ps[j]
    {
      BeforeIrreflexive(ps[i]);
    }
  }

  lemma ExtendDistinct(a: Path, ps: seq<Path>)
    requires Distinct(ps)
    ensures Distinct(Extend(a, ps))
  {
    var e := Extend(a, ps);
    forall i, j | 0 <= i < j < |e|
      ensures e[i] != e[j]
    {
      assert e[i][|a|..] == ps[i] && e[j][|a|..] == ps[j];
    }
  }

  lemma {:induction false} DistinctCount(ps: seq<Path>, q: Path)
    requires Distinct(ps)
    ensures multiset(ps)[q] == if q in ps then 1 else 0
  {
    if |ps| > 0 {
      assert ps == [ps[0]] + ps[1..];
      assert multiset(ps) == multiset{ps[0]} + multiset(ps[1..]);
      assert Distinct(ps[1..]) by {
        forall i, j | 0 <= i < j < |ps[1..]|
          ensures ps[1..][i] != ps[1..][j]
        {
          assert ps[1..][i] == ps[i + 1] && ps[1..][j] == ps[j + 1];
        }
      }
      DistinctCount(ps[1..], q);
      assert ps[0] !in ps[1..] by {
        forall i | 0 <= i < |ps[1..]|
          ensures ps[1..][i] != ps[0]
        {
          assert ps[1..][i] == ps[i + 1];
        }
      }
    }
  }

  /** With a single default export at `a`, the nested `find` reports each
      identifier below it once, in document order. */
  lemma SingleExportTargets(v: Node, a: Path)
    requires Find(v, AnyExportDefault) == [a]
    ensures ValidPath(v, a)
    ensures Coll(v, Targets) == Extend(a, Find(Get(v, a), AnyIdent))
    ensures Distinct(Coll(v, Targets))
  {
    FindSound(v, AnyExportDefault);
    assert a in Find(v, AnyExportDefault);
    assert Targets[1..] == [AnyIdent];
    assert Within(v, [a], [AnyIdent]) == Extend(a, Coll(Get(v, a), [AnyIdent])) + Within(v, [], [AnyIdent]);
    FindInDocOrder(Get(v, a), AnyIdent);
    DocOrderDistinct(Find(Get(v, a), AnyIdent));
    ExtendDistinct(a, Find(Get(v, a), AnyIdent));
  }

  /** Below the one default export, a path is reported exactly when it
      leads to an identifier. */
  lemma TargetIff(v: Node, a: Path, q: Path)
    requires Find(v, AnyExportDefault) == [a] && ValidPath(v, q)
    ensures q in Coll(v, Targets) <==> IsPrefix(a, q) && |q| > |a| && Get(v, q).kind.Ident?
  {
    SingleExportTargets(v, a);
    if q in Coll(v, Targets) {
      TargetIsIdentBelow(v, a, q);
    }
    if IsPrefix(a, q) && |q| > |a| && Get(v, q).kind.Ident? {
      IdentBelowIsTarget(v, a, q);
    }
  }

  lemma TargetIsIdentBelow(v: Node, a: Path, q: Path)
    requires ValidPath(v, a) && q in Extend(a, Find(Get(v, a), AnyIdent))
    ensures IsPrefix(a, q) && |q| > |a| && ValidPath(v, q) && Get(v, q).kind.Ident?
  {
    FindSound(Get(v, a), AnyIdent);
    ExtendedIdent(v, a, Find(Get(v, a), AnyIdent), q);
  }

  lemma ExtendedIdent(v: Node, a: Path, inner: seq<Path>, q: Path)
    requires ValidPath(v, a) && q in Extend(a, inner)
    requires forall p | p in inner :: |p| > 0 && ValidPath(Get(v, a), p) && Matches(Get(Get(v, a), p), AnyIdent)
    ensures IsPrefix(a, q) && |q| > |a| && ValidPath(v, q) && Get(v, q).kind.Ident?
  {
    ExtendSound(v, a, inner, AnyIdent);
    PrefixOfExtend(a, inner, q);
    assert ValidPath(v, q);
    IdentMatch(Get(v, q));
  }

  lemma IdentMatch(g: Node)
    requires Matches(g, AnyIdent)
    ensures g.kind.Ident?
  {
  }

  lemma PrefixOfExtend(a: Path, inner: seq<Path>, q: Path)
    requires q in Extend(a, inner)
    requires forall p | p in inner :: |p| > 0
    ensures IsPrefix(a, q) && |q| > |a|
  {
    var j :| 0 <= j < |inner| && Extend(a, inner)[j] == q;
    assert inner[j] in inner;
    assert q[..|a|] == a;
  }

  lemma IdentBelowIsTarget(v: Node, a: Path, q: Path)
    requires ValidPath(v, a) && ValidPath(v, q)
    requires IsPrefix(a, q) && |q| > |a| && Get(v, q).kind.Ident?
    ensures q in Extend(a, Find(Get(v, a), AnyIdent))
  {
    var inner := Find(Get(v, a), AnyIdent);
    var r := q[|a|..];
    assert q == a + r;
    GetConcat(v, a, r);
    FindComplete(Get(v, a), AnyIdent, r);
    var j :| 0 <= j < |inner| && inner[j] == r;
    assert Extend(a, inner)[j] == q;
  }

  /** With a single default export at `a`, the rename wraps exactly the
      identifiers strictly below `a`, each once, and leaves every other
      node's kind and the shape of the tree as they were. */
  lemma RenameUnderSingleExport(v: Node, a: Path, q: Path)
    requires Find(v, AnyExportDefault) == [a] && ValidPath(v, q)
    ensures ValidPath(RenameExport(v), q)
    ensures |Get(RenameExport(v), q).kids| == |Get(v, q).kids|
    ensures Get(RenameExport(v), q).kind
      == if IsPrefix(a, q) && |q| > |a| && Get(v, q).kind.Ident?
         then Ident(Callee + "(" + Get(v, q).kind.name + ")")
         else Get(v, q).kind
  {
    var ps := Coll(v, Targets);
    SingleExportTargets(v, a);
    TargetIff(v, a, q);
    DistinctCount(ps, q);
    RenameAllKinds(v, Callee, ps, q);
  }

  /** Without a default export nothing is renamed. */
  lemma NoExportNoRename(v: Node)
    requires Find(v, AnyExportDefault) == []
    ensures RenameExport(v) == v
  {
    assert Targets[1..] == [AnyIdent];
  }

  /** `find` below a node with a single child. */
  lemma FindOneChild(k: Kind, x: Node, s: Shape)
    ensures Find(Node(k, [x]), s) == (if Matches(x, s) then [[0]] else []) + Under(0, Find(x, s))
  {
    assert FindKids([x], s, 1) == [];
  }

  lemma ExportOfNameFinds(name: string)
    ensures Find(Node(ExportDefault, [Name(name)]), AnyIdent) == [[0]]
    ensures Find(Node(ExportDefault, [Name(name)]), AnyExportDefault) == []
  {
    assert Find(Name(name), AnyExportDefault) == [];
    assert Find(Name(name), AnyIdent) == [];
    FindOneChild(ExportDefault, Name(name), AnyIdent);
    FindOneChild(ExportDefault, Name(name), AnyExportDefault);
    assert Under(0, []) == [];
  }

  lemma ExportOfNameExport(name: string)
    ensures Find(Node(Root, [Node(ExportDefault, [Name(name)])]), AnyExportDefault) == [[0]]
  {
    var e := Node(ExportDefault, [Name(name)]);
    ExportOfNameFinds(name);
    FindOneChild(Root, e, AnyExportDefault);
    assert Under(0, []) == [];
  }

  /** In `export default MyApp;` the nested `find` reports the one name. */
  lemma ExportOfNameTargets(name: string)
    ensures Coll(Node(Root, [Node(ExportDefault, [Name(name)])]), Targets) == [[0, 0]]
  {
    var v := Node(Root, [Node(ExportDefault, [Name(name)])]);
    ExportOfNameExport(name);
    ExportOfNameFinds(name);
    SingleExportTargets(v, [0]);
    assert Get(v, [0]) == Node(ExportDefault, [Name(name)]);
    SoleExtend();
  }

  lemma SoleExtend()
    ensures Extend([0], [[0]]) == [[0, 0]]
  {
    assert Extend([0], [[0]])[0] == [0] + [0] == [0, 0];
  }

  /** `export default MyApp;` becomes `export default trpc.withTRPC(MyApp);`. */
  lemma ExportOfName(name: string)
    ensures
      var v := Node(Root, [Node(ExportDefault, [Name(name)])]);
      RenameExport(v) == Node(Root, [Node(ExportDefault, [Name(Callee + "(" + name + ")")])])
  {
    ExportOfNameTargets(name);
    RenameSoleName(name, Callee);
  }

  /** Renaming the one name below the one export, whatever the callee. */
  lemma RenameSoleName(name: string, c: string)
    ensures
      var v := Node(Root, [Node(ExportDefault, [Name(name)])]);
      && ValidPath(v, [0, 0])
      && RenameAll(v, c, [[0, 0]]) == Node(Root, [Node(ExportDefault, [Name(c + "(" + name + ")")])])
  {
    var v := Node(Root, [Node(ExportDefault, [Name(name)])]);
    var e := Node(ExportDefault, [Name(name)]);
    var p: Path := [0, 0];
    assert p[1..] == [0] && [0][1..] == [];
    var e' := Update(e, [0], WrapName(c));
    assert e' == Node(ExportDefault, [Name(c + "(" + name + ")")]);
    var v' := Update(v, p, WrapName(c));
    assert v' == Node(Root, [e']);
    assert [p][1..] == [];
    assert RenameAll(v, c, [p]) == RenameAll(v', c, []);
  }
}

=== FILE: frame.dfy ===
/** What an edit leaves alone: appending a node that no shape of a query
    looks for, to a block or an object literal, does not change what that
    query finds. */
module Frame {
  import opened Ast
  import opened Locator

  /** Kinds whose every shape test looks at the kind alone. */
  predicate Plain(k: Kind) {
    k == Block || k == Object
  }

  /** `x` holds no node that any shape of `q` matches. */
  ghost predicate Inert(x: Node, q: seq<Shape>) {
    forall i | 0 <= i < |q| :: !Matches(x, q[i]) && Find(x, q[i]) == []
  }

  lemma MatchesStable(n: Node, p: Path, e: Edit, s: Shape)
    requires ValidPath(n, p) && Plain(Get(n, p).kind) && !e.WrapName?
    ensures Matches(Update(n, p, e), s) == Matches(n, s)
  {
    var r := Update(n, p, e);
    if |p| == 1 {
      assert r.kids[p[0]] == Apply(e, n.kids[p[0]]);
    } else if |p| > 1 {
      var c := n.kids[p[0]];
      assert r.kids[p[0]] == Update(c, p[1..], e);
      assert r.kids[p[0]].kind == c.kind && |r.kids[p[0]].kids| == |c.kids|;
      if p[1] == 0 && |p| == 2 {
        assert r.kids[p[0]].kids[0] == Apply(e, c.kids[0]);
      }
    }
  }

  lemma {:induction false} FindKidsSnoc(ks: seq<Node>, x: Node, s: Shape, i: nat)
    requires i <= |ks|
    requires !Matches(x, s) && Find(x, s) == []
    ensures FindKids(ks + [x], s, i) == FindKids(ks, s, i)
    decreases |ks| - i
  {
    if i == |ks| {
      assert (ks + [x])[i] == x;
      assert FindKids(ks + [x], s, i + 1) == [];
    } else {
      assert (ks + [x])[i] == ks[i];
      FindKidsSnoc(ks, x, s, i + 1);
    }
  }

  lemma {:induction false} FindKidsSwap(ks: seq<Node>, j: nat, k: Node, s: Shape, i: nat)
    requires j < |ks| && i <= |ks|
    requires Matches(k, s) == Matches(ks[j], s) && Find(k, s) == Find(ks[j], s)
    ensures FindKids(ks[j := k], s, i) == FindKids(ks, s, i)
    decreases |ks| - i
  {
    if i < |ks| {
      FindKidsSwap(ks, j, k, s, i + 1);
    }
  }

  /** Appending an inert node to a block or object keeps `find` as it was. */
  lemma {:induction false} FindAppendInert(n: Node, p: Path, x: Node, s: Shape)
    requires ValidPath(n, p) && Plain(Get(n, p).kind)
    requires !Matches(x, s) && Find(x, s) == []
    ensures Find(Update(n, p, Append(x)), s) == Find(n, s)
    decreases |p|
  {
    if |p| == 0 {
      FindKidsSnoc(n.kids, x, s, 0);
    } else {
      var c := n.kids[p[0]];
      var c' := Update(c, p[1..], Append(x));
      FindAppendInert(c, p[1..], x, s);
      MatchesStable(c, p[1..], Append(x), s);
      FindKidsSwap(n.kids, p[0], c', s, 0);
    }
  }

  /** Below the block or object appended to, the old children stay put. */
  lemma GetBelowAppend(n: Node, p: Path, x: Node, a: Path)
    requires ValidPath(n, p) && ValidPath(n, a)
    requires IsPrefix(p, a) && |a| > |p|
    ensures ValidPath(Update(n, p, Append(x)), a)
    ensures Get(Update(n, p, Append(x)), a) == Get(n, a)
  {
    var n' := Update(n, p, Append(x));
    UpdateAt(n, p, Append(x));
    var rest := a[|p|..];
    assert a == p + rest;
    GetConcat(n, p, rest);
    GetConcat(n', p, rest);
    var old_ := Get(n, p);
    assert rest[0] < |old_.kids|;
    assert Get(n', p).kids[rest[0]] == old_.kids[rest[0]];
    assert ValidPath(Get(n', p), rest) && Get(Get(n', p), rest) == Get(old_, rest);
  }

  lemma ValidAfterAppend(n: Node, p: Path, x: Node, a: Path)
    requires ValidPath(n, p) && ValidPath(n, a)
    ensures ValidPath(Update(n, p, Append(x)), a)
  {
    if IsPrefix(a, p) {
      UpdateAncestor(n, p, Append(x), a);
    } else if IsPrefix(p, a) {
      GetBelowAppend(n, p, x, a);
    } else {
      UpdateElsewhere(n, p, Append(x), a);
    }
  }

  /** Appending an inert node to a block or object keeps every nested
      `find` made of the query's shapes as it was. */
  lemma {:induction false} CollAppendInert(n: Node, p: Path, x: Node, q: seq<Shape>)
    requires |q| > 0
    requires ValidPath(n, p) && Plain(Get(n, p).kind) && Inert(x, q)
    ensures Coll(Update(n, p, Append(x)), q) == Coll(n, q)
    decreases |q|, 1, 0
  {
    var n' := Update(n, p, Append(x));
    FindAppendInert(n, p, x, q[0]);
    if |q| > 1 {
      var ps := Find(n, q[0]);
      FindSound(n, q[0]);
      forall a | a in ps
        ensures ValidPath(n', a)
      {
        ValidAfterAppend(n, p, x, a);
      }
      assert Inert(x, q[1..]) by {
        forall i | 0 <= i < |q[1..]|
          ensures !Matches(x, q[1..][i]) && Find(x, q[1..][i]) == []
        {
          assert q[1..][i] == q[i + 1];
        }
      }
      WithinAppendInert(n, p, x, ps, q[1..]);
    }
  }

  lemma {:induction false} WithinAppendInert(n: Node, p: Path, x: Node, ps: seq<Path>, q: seq<Shape>)
    requires |q| > 0
    requires ValidPath(n, p) && Plain(Get(n, p).kind) && Inert(x, q)
    requires forall a | a in ps :: ValidPath(n, a)
    requires forall a | a in ps :: ValidPath(Update(n, p, Append(x)), a)
    ensures Within(Update(n, p, Append(x)), ps, q) == Within(n, ps, q)
    decreases |q| + 1, 0, |ps|
  {
    if |ps| > 0 {
      var n' := Update(n, p, Append(x));
      var a := ps[0];
      if IsPrefix(a, p) {
        UpdateAncestor(n, p, Append(x), a);
        var rest := p[|a|..];
        assert a + rest == p;
        GetConcat(n, a, rest);
        CollAppendInert(Get(n, a), rest, x, q);
      } else if IsPrefix(p, a) {
        GetBelowAppend(n, p, x, a);
      } else {
        UpdateElsewhere(n, p, Append(x), a);
      }
      assert Get(n', a) == Get(n, a) || IsPrefix(a, p);
      WithinAppendInert(n, p, x, ps[1..], q);
    }
  }

  lemma FirstAppendInert(n: Node, p: Path, x: Node, q: seq<Shape>)
    requires |q| > 0
    requires ValidPath(n, p) && Plain(Get(n, p).kind) && Inert(x, q)
    ensures First(Update(n, p, Append(x)), q) == First(n, q)
  {
    CollAppendInert(n, p, x, q);
  }
}

=== FILE: locator.dfy ===
/** The structural locator: jscodeshift's `find(type, filter)`, nested
    `find` on a collection, and `at(0)`.

    `find` visits the strict descendants of each node of the collection in
    pre-order (the start node itself is skipped) and keeps those that match;
    a nested `find` concatenates the results found under each path of the
    outer collection, without removing duplicates. */
module Locator {
  import opened Ast

  /** A shape predicate: a node type plus the attribute equalities the
      codemods ask for. */
  datatype Shape =
    | DeclaratorNamed(id: string)   // VariableDeclarator, { id: { name: id } }
    | AnyBlock                      // BlockStatement
    | AnyReturn                     // ReturnStatement
    | AnyObject                     // ObjectExpression
    | JsxNamed(tag: string)         // JSXElement, { openingElement: { name: { name: tag } } }
    | AnyExportDefault              // ExportDefaultDeclaration
    | AnyIdent                      // Identifier (JSXIdentifier included)

  predicate Matches(n: Node, s: Shape) {
    match s
    case DeclaratorNamed(id) =>
      n.kind == Declarator && |n.kids| > 0 && n.kids[0].kind == Ident(id)
    case AnyBlock => n.kind == Block
    case AnyReturn => n.kind == Return
    case AnyObject => n.kind == Object
    case JsxNamed(tag) =>
      && n.kind == JsxElement && |n.kids| > 0
      && n.kids[0].kind == JsxOpening && |n.kids[0].kids| > 0
      && n.kids[0].kids[0].kind == Ident(tag)
    case AnyExportDefault => n.kind == ExportDefault
    case AnyIdent => n.kind.Ident?
  }

  /** `ps` with child index `i` put in front of every path. */
  function Under(i: nat, ps: seq<Path>): (r: seq<Path>)
    ensures |r| == |ps|
    ensures forall j | 0 <= j < |ps| :: r[j] == [i] + ps[j]
  {
    seq(|ps|, j requires 0 <= j < |ps| => [i] + ps[j])
  }

  /** `ps` with the path `a` put in front of every path. */
  function Extend(a: Path, ps: seq<Path>): (r: seq<Path>)
    ensures |r| == |ps|
    ensures forall j | 0 <= j < |ps| :: r[j] == a + ps[j]
  {
    seq(|ps|, j requires 0 <= j < |ps| => a + ps[j])
  }

  /** `find`: the paths of the strict descendants of `n` that match `s`. */
  function Find(n: Node, s: Shape): seq<Path>
    decreases n, 1
  {
    FindKids(n.kids, s, 0)
  }

  /** The matches in the subtrees `ks[i..]`, as paths whose first index
      is a position in `ks`. */
  function FindKids(ks: seq<Node>, s: Shape, i: nat): seq<Path>
    requires i <= |ks|
    decreases ks, 0, |ks| - i
  {
    if i == |ks| then []
    else
      (if Matches(ks[i], s) then [[i]] else [])
      + Under(i, Find(ks[i], s))
      + FindKids(ks, s, i + 1)
  }

  /** Everything found is a matching strict descendant. */
  lemma {:induction false} FindSound(n: Node, s: Shape)
    ensures forall p | p in Find(n, s) :: |p| > 0 && ValidPath(n, p) && Matches(Get(n, p), s)
    decreases n, 1
  {
    FindKidsSound(n.kids, s, 0);
  }

  lemma {:induction false} FindKidsSound(ks: seq<Node>, s: Shape, i: nat)
    requires i <= |ks|
    ensures forall p | p in FindKids(ks, s, i) ::
      && |p| > 0 && i <= p[0] < |ks|
      && ValidPath(ks[p[0]], p[1..]) && Matches(Get(ks[p[0]], p[1..]), s)
    decreases ks, 0, |ks| - i, 1
  {
    forall p | p in FindKids(ks, s, i)
      ensures && |p| > 0 && i <= p[0] < |ks|
              && ValidPath(ks[p[0]], p[1..]) && Matches(Get(ks[p[0]], p[1..]), s)
    {
      FindKidsSoundAt(ks, s, i, p);
    }
  }

  /** One path reported from the subtrees `ks[i..]`: a match at a child, one
      below a child, or one from a later child. */
  lemma {:induction false} FindKidsSoundAt(ks: seq<Node>, s: Shape, i: nat, p: Path)
    requires i <= |ks| && p in FindKids(ks, s, i)
    ensures && |p| > 0 && i <= p[0] < |ks|
            && ValidPath(ks[p[0]], p[1..]) && Matches(Get(ks[p[0]], p[1..]), s)
    decreases ks, 0, |ks| - i, 0
  {
    var hit: seq<Path> := if Matches(ks[i], s) then [[i]] else [];
    var under := Under(i, Find(ks[i], s));
    assert FindKids(ks, s, i) == hit + under + FindKids(ks, s, i + 1);
    if p in hit {
      assert p == [i] && p[1..] == [];
    } else if p in under {
      FindSound(ks[i], s);
      UnderSound(ks[i], i, Find(ks[i], s), s);
    } else {
      FindKidsSoundAt(ks, s, i + 1, p);
    }
  }

  lemma UnderSound(k: Node, i: nat, inner: seq<Path>, s: Shape)
    requires forall p | p in inner :: |p| > 0 && ValidPath(k, p) && Matches(Get(k, p), s)
    ensures forall p | p in Under(i, inner) ::
      |p| > 0 && p[0] == i && ValidPath(k, p[1..]) && Matches(Get(k, p[1..]), s)
  {
    forall p | p in Under(i, inner)
      ensures |p| > 0 && p[0] == i && ValidPath(k, p[1..]) && Matches(Get(k, p[1..]), s)
    {
      var j :| 0 <= j < |inner| && Under(i, inner)[j] == p;
      assert p[1..] == inner[j];
    }
  }

  /** Every matching strict descendant is found. */
  lemma {:induction false} FindComplete(n: Node, s: Shape, p: Path)
    requires |p| > 0 && ValidPath(n, p) && Matches(Get(n, p), s)
    ensures p in Find(n, s)
    decreases |p|, 1, 0
  {
    FindKidsComplete(n.kids, s, 0, p);
  }

  lemma {:induction false} FindKidsComplete(ks: seq<Node>, s: Shape, i: nat, p: Path)
    requires |p| > 0 && i <= p[0] < |ks|
    requires ValidPath(ks[p[0]], p[1..]) && Matches(Get(ks[p[0]], p[1..]), s)
    ensures p in FindKids(ks, s, i)
    decreases |p|, 0, |ks| - i
  {
    if p[0] == i && |p| == 1 {
      assert p == [i];
      assert Get(ks[p[0]], p[1..]) == ks[i];
      FindKidsHere(ks, s, i);
    } else if p[0] == i {
      FindComplete(ks[i], s, p[1..]);
      var j :| 0 <= j < |Find(ks[i], s)| && Find(ks[i], s)[j] == p[1..];
      FindKidsBelow(ks, s, i, j);
      assert [i] + p[1..] == p;
    } else {
      FindKidsComplete(ks, s, i + 1, p);
      FindKidsLater(ks, s, i, p);
    }
  }

  lemma FindKidsHere(ks: seq<Node>, s: Shape, i: nat)
    requires i < |ks| && Matches(ks[i], s)
    ensures [i] in FindKids(ks, s, i)
  {
  }

  lemma FindKidsBelow(ks: seq<Node>, s: Shape, i: nat, j: nat)
    requires i < |ks| && j < |Find(ks[i], s)|
    ensures [i] + Find(ks[i], s)[j] in FindKids(ks, s, i)
  {
    assert Under(i, Find(ks[i], s))[j] == [i] + Find(ks[i], s)[j];
  }

  lemma FindKidsLater(ks: seq<Node>, s: Shape, i: nat, p: Path)
    requires i < |ks| && p in FindKids(ks, s, i + 1)
    ensures p in FindKids(ks, s, i)
  {
  }

  /** Strictly earlier in document (pre-order) order: an ancestor comes
      before its descendants, and an earlier sibling's subtree before a
      later sibling. */
  predicate Before(p: Path, q: Path)
    decreases |p|
  {
    |q| > 0 && (|p| == 0 || p[0] < q[0] || (p[0] == q[0] && Before(p[1..], q[1..])))
  }

  predicate InDocOrder(ps: seq<Path>) {
    forall a, b | 0 <= a < b < |ps| :: Before(ps[a], ps[b])
  }

  lemma {:induction false} BeforeIrreflexive(p: Path)
    ensures !Before(p, p)
    decreases |p|
  {
    if |p| > 0 {
      BeforeIrreflexive(p[1..]);
    }
  }

  lemma InDocOrderConcat(xs: seq<Path>, ys: seq<Path>)
    requires InDocOrder(xs) && InDocOrder(ys)
    requires forall x, y | x in xs && y in ys :: Before(x, y)
    ensures InDocOrder(xs + ys)
  {
    forall a, b | 0 <= a < b < |xs + ys|
      ensures Before((xs + ys)[a], (xs + ys)[b])
    {
      if b < |xs| {
      } else if a >= |xs| {
        assert (xs + ys)[a] == ys[a - |xs|] && (xs + ys)[b] == ys[b - |xs|];
      } else {
        assert (xs + ys)[a] in xs && (xs + ys)[b] in ys;
      }
    }
  }

  /** `find` lists its matches in document order, each once. */
  lemma {:induction false} FindInDocOrder(n: Node, s: Shape)
    ensures InDocOrder(Find(n, s))
    decreases n, 1
  {
    FindKidsInDocOrder(n.kids, s, 0);
  }

  lemma {:induction false} FindKidsInDocOrder(ks: seq<Node>, s: Shape, i: nat)
    requires i <= |ks|
    ensures InDocOrder(FindKids(ks, s, i))
    decreases ks, 0, |ks| - i
  {
    if i < |ks| {
      var hit: seq<Path> := if Matches(ks[i], s) then [[i]] else [];
      var here := hit + Under(i, Find(ks[i], s));
      FindInDocOrder(ks[i], s);
      HereInDocOrder(ks, s, i);
      FindKidsInDocOrder(ks, s, i + 1);
      HereBeforeLater(ks, s, i, here);
      InDocOrderConcat(here, FindKids(ks, s, i + 1));
    }
  }

  /** The matches at child `i` and in its subtree, in document order, all
      under child `i`. */
  lemma HereInDocOrder(ks: seq<Node>, s: Shape, i: nat)
    requires i < |ks| && InDocOrder(Find(ks[i], s))
    ensures
      var hit: seq<Path> := if Matches(ks[i], s) then [[i]] else [];
      var here := hit + Under(i, Find(ks[i], s));
      && InDocOrder(here)
      && forall p | p in here :: |p| > 0 && p[0] == i
  {
    var hit: seq<Path> := if Matches(ks[i], s) then [[i]] else [];
    FindSound(ks[i], s);
    HitThenUnder(hit, i, Find(ks[i], s));
  }

  /** A match at child `i` followed by the matches below it, all nonempty
      paths in document order, is in document order. */
  lemma HitThenUnder(hit: seq<Path>, i: nat, inner: seq<Path>)
    requires hit == [] || hit == [[i]]
    requires InDocOrder(inner) && forall p | p in inner :: |p| > 0
    ensures InDocOrder(hit + Under(i, inner))
    ensures forall p | p in hit + Under(i, inner) :: |p| > 0 && p[0] == i
  {
    var under := Under(i, inner);
    assert InDocOrder(under) by {
      forall a, b | 0 <= a < b < |under|
        ensures Before(under[a], under[b])
      {
        assert Before(inner[a], inner[b]);
        assert under[a][1..] == inner[a] && under[b][1..] == inner[b];
      }
    }
    forall x, y | x in hit && y in under
      ensures Before(x, y)
    {
      var j :| 0 <= j < |inner| && under[j] == y;
      assert inner[j] in inner;
      assert y[1..] == inner[j];
    }
    InDocOrderConcat(hit, under);
  }

  /** Whatever `find` reports in the subtree of child `i` comes before
      what it reports in later children. */
  lemma HereBeforeLater(ks: seq<Node>, s: Shape, i: nat, here: seq<Path>)
    requires i < |ks|
    requires forall p | p in here :: |p| > 0 && p[0] == i
    ensures forall x, y | x in here && y in FindKids(ks, s, i + 1) :: Before(x, y)
  {
    FindKidsSound(ks, s, i + 1);
  }

  /** A nested `find`: `Coll(n, [s1, s2, ..., sk])` is
      `n.find(s1).find(s2)...find(sk)`. */
  function Coll(n: Node, q: seq<Shape>): (r: seq<Path>)
    requires |q| > 0
    ensures forall p | p in r :: |p| > 0 && ValidPath(n, p) && Matches(Get(n, p), q[|q| - 1])
    decreases |q|, 1, 0
  {
    FindSound(n, q[0]);
    if |q| == 1 then Find(n, q[0]) else Within(n, Find(n, q[0]), q[1..])
  }

  /** `find(q...)` run from each path of `ps` in turn, results concatenated. */
  function Within(n: Node, ps: seq<Path>, q: seq<Shape>): (r: seq<Path>)
    requires |q| > 0
    requires forall p | p in ps :: ValidPath(n, p)
    ensures forall p | p in r :: |p| > 0 && ValidPath(n, p) && Matches(Get(n, p), q[|q| - 1])
    decreases |q| + 1, 0, |ps|
  {
    if |ps| == 0 then []
    else
      var inner := Coll(Get(n, ps[0]), q);
      ExtendSound(n, ps[0], inner, q[|q| - 1]);
      Extend(ps[0], inner) + Within(n, ps[1..], q)
  }

  lemma ExtendSound(n: Node, a: Path, inner: seq<Path>, s: Shape)
    requires ValidPath(n, a)
    requires forall p | p in inner :: |p| > 0 && ValidPath(Get(n, a), p) && Matches(Get(Get(n, a), p), s)
    ensures forall p | p in Extend(a, inner) :: |p| > 0 && ValidPath(n, p) && Matches(Get(n, p), s)
  {
    forall p | p in Extend(a, inner)
      ensures |p| > 0 && ValidPath(n, p) && Matches(Get(n, p), s)
    {
      var j :| 0 <= j < |inner| && Extend(a, inner)[j] == p;
      GetConcat(n, a, inner[j]);
    }
  }

  /** `.at(0)`: the first path of the nested `find`, if there is one. */
  function First(n: Node, q: seq<Shape>): (r: Option<Path>)
    requires |q| > 0
    ensures r.Some? <==> |Coll(n, q)| > 0
    ensures r.Some? ==> |r.value| > 0 && ValidPath(n, r.value) && Matches(Get(n, r.value), q[|q| - 1])
    ensures r.Some? ==> r.value == Coll(n, q)[0]
  {
    var c := Coll(n, q);
    if |c| > 0 then Some(c[0]) else None
  }

  /** For a single `find`, `.at(0)` is the earliest match in document
      order: any matching proper descendant is it or comes after it. */
  lemma FirstIsEarliest(n: Node, s: Shape, p: Path)
    requires |p| > 0 && ValidPath(n, p) && Matches(Get(n, p), s)
    ensures First(n, [s]).Some?
    ensures First(n, [s]).value == p || Before(First(n, [s]).value, p)
  {
    var c := Find(n, s);
    FindComplete(n, s, p);
    FindInDocOrder(n, s);
    assert Coll(n, [s]) == c;
    var j :| 0 <= j < |c| && c[j] == p;
    if j > 0 {
      assert Before(c[0], c[j]);
    }
  }

  datatype Option<+T> = None | Some(value: T)
}

=== FILE: next_auth.dfy ===
/** The NextAuth installer: the assets it copies, and the codemod that
    wires the Prisma adapter into the NextAuth API handler. */
module NextAuth {
  import opened Ast
  import opened Locator
  import opened Source
  import opened Codemod
  import opened Plan

  /** The package list passed to the package manager. The adapter slot is
      the empty string, not left out, when Prisma is not selected. */
  function Dependencies(usingPrisma: bool): (r: seq<string>)
    ensures |r| == 2 && r[0] == "next-auth"
    ensures r[1] == "@next-auth/prisma-adapter" <==> usingPrisma
    ensures r[1] == "" <==> !usingPrisma
  {
    ["next-auth", if usingPrisma then "@next-auth/prisma-adapter" else ""]
  }

  const AssetDir := "template/addons/next-auth/"
  const ApiHandlerDest := "src/pages/api/auth/[...nextauth].ts"

  /** The copies of the `Promise.all` batch. */
  const Copies: seq<Copy> := [
    Copy(AssetDir + "api-handler.ts", ApiHandlerDest),
    Copy(AssetDir + "restricted.ts", "src/pages/api/restricted.ts"),
    Copy(AssetDir + "next-auth.d.ts", "next-auth.d.ts")
  ]

  function Jobs(usingPrisma: bool): seq<FileJob> {
    if usingPrisma then [FileJob(ApiHandlerDest, NextAuthHandler)] else []
  }

  function Installer(packages: Packages): InstallerPlan {
    InstallerPlan(Install(Dependencies(packages.prisma), false), Copies, Jobs(packages.prisma))
  }

  // ---------------------------------------------------------------------
  // The handler codemod

  const AdapterImport: Item :=
    ImportItem("\nimport { PrismaAdapter } from \"@next-auth/prisma-adapter\";",
      ["Prisma adapter for NextAuth, optional and can be removed"])
  const PrismaImport: Item :=
    ImportItem("\nimport { prisma } from \"../../../server/db/client\";", [])
  const HandlerImports: seq<Item> := [AdapterImport, PrismaImport]

  const AuthOptionsDeclarator: seq<Shape> := [DeclaratorNamed("authOptions")]
  const AuthOptionsObject: seq<Shape> := [DeclaratorNamed("authOptions"), AnyObject]

  const AdapterProperty: Node := Prop("adapter", Name("PrismaAdapter(prisma)"))

  lemma HandlerImportsKeepCode(prog: Program)
    ensures View(AddImports(prog, HandlerImports)) == View(prog)
  {
    AddImportsKeepsCode(prog, HandlerImports);
  }

  /** Add the two imports, then append `adapter: PrismaAdapter(prisma)` as
      the last property of the first object literal inside the
      `authOptions` declarator. */
  function HandlerTransform(prog: Program): (r: Program)
    ensures SameImports(AddImports(prog, HandlerImports).body, r.body)
    ensures First(View(prog), AuthOptionsObject).None? ==> r == AddImports(prog, HandlerImports)
    ensures EditedFirst(View(prog), View(r), AuthOptionsObject, Append(AdapterProperty))
  {
    HandlerImportsKeepCode(prog);
    ImportThenAppend(prog, HandlerImports, AuthOptionsObject, AdapterProperty)
  }

  /** The adapter import, carrying its line comment, and then the prisma
      import land right after the file's last import. */
  lemma HandlerImportsPlaced(prog: Program)
    ensures
      var k := InsertionPoint(prog.body);
      var r := HandlerTransform(prog);
      && k + 2 <= |r.body|
      && r.body[k..k + 2] == [AdapterImport, PrismaImport]
  {
    var r := HandlerTransform(prog);
    HandlerBlockKept(prog, r);
  }

  lemma HandlerBlockKept(prog: Program, mid: Program)
    requires SameImports(AddImports(prog, HandlerImports).body, mid.body)
    ensures
      var k := InsertionPoint(prog.body);
      && k + 2 <= |mid.body|
      && mid.body[k..k + 2] == [AdapterImport, PrismaImport]
  {
    MidKeepsBlock(prog, HandlerImports, mid);
  }

  /** When the first `authOptions` declarator is initialised directly with
      an object literal, that object is the one the codemod extends:
      `find` reports the outermost object first. The declarator's id (with
      any type annotation) holds no object literal. */
  lemma TargetIsInitialiser(n: Node, d: Path)
    requires First(n, AuthOptionsDeclarator) == Some(d)
    requires |Get(n, d).kids| == 2 && Find(Get(n, d).kids[0], AnyObject) == []
    requires Get(n, d).kids[1].kind == Object
    ensures First(n, AuthOptionsObject) == Some(d + [1])
  {
    var decl := Get(n, d);
    var ps := Find(n, DeclaratorNamed("authOptions"));
    assert Coll(n, AuthOptionsDeclarator) == ps;
    assert ps[0] == d;
    FindSound(n, DeclaratorNamed("authOptions"));
    assert AuthOptionsObject[1..] == [AnyObject];
    InitialiserFoundFirst(decl);
    var inner := Coll(decl, [AnyObject]);
    assert Within(n, ps, [AnyObject]) == Extend(d, inner) + Within(n, ps[1..], [AnyObject]);
    assert Extend(d, inner)[0] == d + [1];
  }

  lemma InitialiserFoundFirst(decl: Node)
    requires decl.kind == Declarator && |decl.kids| == 2 && decl.kids[0].kind.Ident?
    requires Find(decl.kids[0], AnyObject) == [] && decl.kids[1].kind == Object
    ensures |Coll(decl, [AnyObject])| > 0 && Coll(decl, [AnyObject])[0] == [1]
  {
    var ks := decl.kids;
    assert Coll(decl, [AnyObject]) == FindKids(ks, AnyObject, 0);
    assert Under(0, Find(ks[0], AnyObject)) == [];
    assert FindKids(ks, AnyObject, 0) == FindKids(ks, AnyObject, 1);
    assert FindKids(ks, AnyObject, 1)[0] == [1];
  }

  /** Without an `authOptions` declarator the handler only gains the
      imports. */
  lemma HandlerMissAddsImportsOnly(prog: Program)
    requires Find(View(prog), DeclaratorNamed("authOptions")) == []
    ensures HandlerTransform(prog) == AddImports(prog, HandlerImports)
  {
    assert AuthOptionsObject[0] == DeclaratorNamed("authOptions");
  }

  // ---------------------------------------------------------------------
  // Properties of the plan

  /** The handler codemod runs exactly when Prisma is selected, on a file
      the installer copies; no two copies share a destination. */
  lemma InstallerWellFormed(packages: Packages)
    ensures (|Installer(packages).jobs| > 0) <==> packages.prisma
    ensures JobsTargetCopies(Installer(packages))
    ensures DistinctDests(Installer(packages).copies)
    ensures OneJobPerFile(Installer(packages).jobs)
  {
    assert Dests(Copies)[0] == ApiHandlerDest;
    DistinctByLength(Copies);
  }
}

=== FILE: pipeline.dfy ===
/** Running an installer plan against a project directory: the concurrent
    template copies first, then each `transformFile` call in turn.

    A file holds its parsed program; reading, parsing with the tsx parser
    and printing back are not modelled (see README).  The one failure kept
    is the one the plans can provoke: reading or copying a file that is not
    there, which rejects the awaited promise and stops the installer. */
module Pipeline {
  import opened Source
  import opened Plan
  import Trpc
  import NextAuth
  import SelectBoilerplate

  /** Project files (and template assets), by relative path. */
  type Files = map<string, Program>

  datatype Result<T> = Ok(value: T) | Missing(path: string)

  /** The transform a `transformFile` callback runs on the parsed program. */
  function RunCallback(c: Callback, prog: Program): Program {
    match c
    case TrpcContext(usingAuth, usingPrisma) => Trpc.ContextCallback(usingAuth, usingPrisma, prog)
    case TrpcIndexRouter => Trpc.IndexRouterTransform(prog)
    case TrpcExampleRouter => Trpc.ExampleRouterTransform(prog)
    case NextAuthHandler => NextAuth.HandlerTransform(prog)
    case AppFile(usingNextAuth, usingTrpc) => SelectBoilerplate.AppCallback(usingNextAuth, usingTrpc, prog)
  }

  /** `transformFile`: read the file, run the callback, write the result
      back to the same path. */
  function TransformFile(files: Files, dest: string, c: Callback): (r: Result<Files>)
    ensures r.Missing? <==> dest !in files
    ensures r.Missing? ==> r.path == dest
    ensures r.Ok? ==> r.value.Keys == files.Keys && r.value[dest] == RunCallback(c, files[dest])
    ensures r.Ok? ==> forall f | f in files && f != dest :: r.value[f] == files[f]
  {
    if dest in files then Ok(files[dest := RunCallback(c, files[dest])]) else Missing(dest)
  }

  /** The awaited `transformFile` calls, in order; the first rejection ends
      the installer. */
  function RunJobs(files: Files, jobs: seq<FileJob>): Result<Files>
    decreases |jobs|
  {
    if |jobs| == 0 then Ok(files)
    else match TransformFile(files, jobs[0].dest, jobs[0].callback)
      case Missing(p) => Missing(p)
      case Ok(files') => RunJobs(files', jobs[1..])
  }

  /** The jobs succeed exactly when every file they name exists; then no
      file is created or removed. */
  lemma {:induction false} RunJobsOk(files: Files, jobs: seq<FileJob>)
    ensures RunJobs(files, jobs).Ok? <==> forall j | 0 <= j < |jobs| :: jobs[j].dest in files
    ensures RunJobs(files, jobs).Ok? ==> RunJobs(files, jobs).value.Keys == files.Keys
    decreases |jobs|
  {
    if |jobs| > 0 {
      var t := TransformFile(files, jobs[0].dest, jobs[0].callback);
      if t.Ok? {
        RunJobsOk(t.value, jobs[1..]);
        assert forall j | 1 <= j < |jobs| :: jobs[1..][j - 1] == jobs[j];
      }
    }
  }

  /** With one job per file, each named file ends up as its callback made
      it from the content it had before, and every other file is untouched. */
  lemma {:induction false} RunJobsEffect(files: Files, jobs: seq<FileJob>)
    requires OneJobPerFile(jobs)
    requires forall j | 0 <= j < |jobs| :: jobs[j].dest in files
    ensures RunJobs(files, jobs).Ok? && RunJobs(files, jobs).value.Keys == files.Keys
    ensures forall j | 0 <= j < |jobs| ::
      RunJobs(files, jobs).value[jobs[j].dest] == RunCallback(jobs[j].callback, files[jobs[j].dest])
    ensures forall f | f in files && (forall j | 0 <= j < |jobs| :: jobs[j].dest != f) ::
      RunJobs(files, jobs).value[f] == files[f]
    decreases |jobs|
  {
    RunJobsOk(files, jobs);
    if |jobs| > 0 {
      var rest := jobs[1..];
      var files' := TransformFile(files, jobs[0].dest, jobs[0].callback).value;
      assert OneJobPerFile(rest) by {
        forall a, b | 0 <= a < b < |rest|
          ensures rest[a].dest != rest[b].dest
        {
          assert rest[a] == jobs[a + 1] && rest[b] == jobs[b + 1];
        }
      }
      assert forall j | 0 <= j < |rest| :: rest[j] == jobs[j + 1];
      RunJobsEffect(files', rest);
      var r := RunJobs(files, jobs).value;
      assert r == RunJobs(files', rest).value;
      forall j | 0 <= j < |jobs|
        ensures r[jobs[j].dest] == RunCallback(jobs[j].callback, files[jobs[j].dest])
      {
        if j == 0 {
          assert forall i | 0 <= i < |rest| :: rest[i].dest != jobs[0].dest;
        } else {
          assert rest[j - 1] == jobs[j];
        }
      }
    }
  }

  /** `transformAppFile`: `_app.tsx` is read and written back once, by the
      callback closing over the two flags (`AppCallbackOrder` gives its
      order); a missing `_app.tsx` rejects with its path. */
  lemma AppJobEffect(files: Files, p: Packages)
    ensures
      var r := RunJobs(files, [SelectBoilerplate.AppJob(p)]);
      var d := SelectBoilerplate.AppDest;
      && (r.Missing? <==> d !in files)
      && (r.Missing? ==> r.path == d)
      && (r.Ok? ==> r.value.Keys == files.Keys)
      && (r.Ok? ==> forall f | f in files && f != d :: r.value[f] == files[f])
      && (r.Ok? ==> r.value[d] == SelectBoilerplate.AppCallback(p.nextAuth, p.trpc, files[d]))
  {
    var j := SelectBoilerplate.AppJob(p);
    SingleJob(files, j);
    assert j.callback == AppFile(p.nextAuth, p.trpc);
  }

  /** One job is one `transformFile` call. */
  lemma SingleJob(files: Files, j: FileJob)
    ensures
      var r := RunJobs(files, [j]);
      && (r.Missing? <==> j.dest !in files)
      && (r.Missing? ==> r.path == j.dest)
      && (r.Ok? ==> r.value.Keys == files.Keys)
      && (r.Ok? ==> forall f | f in files && f != j.dest :: r.value[f] == files[f])
      && (r.Ok? ==> r.value[j.dest] == RunCallback(j.callback, files[j.dest]))
  {
    assert [j][1..] == [];
  }

  // ---------------------------------------------------------------------
  // The template copies

  /** `fs.copy`: the destination gets the asset's content, replacing any
      file already there. */
  function CopyOne(files: Files, assets: Files, c: Copy): (r: Result<Files>)
    ensures r.Missing? <==> c.src !in assets
    ensures r.Missing? ==> r.path == c.src
    ensures r.Ok? ==> r.value.Keys == files.Keys + {c.dest} && r.value[c.dest] == assets[c.src]
    ensures r.Ok? ==> forall f | f in files && f != c.dest :: r.value[f] == files[f]
  {
    if c.src in assets then Ok(files[c.dest := assets[c.src]]) else Missing(c.src)
  }

  /** The copies, applied one after the other. */
  function CopyAll(files: Files, assets: Files, copies: seq<Copy>): Result<Files>
    decreases |copies|
  {
    if |copies| == 0 then Ok(files)
    else match CopyOne(files, assets, copies[0])
      case Missing(p) => Missing(p)
      case Ok(files') => CopyAll(files', assets, copies[1..])
  }

  /** The sources of the copies all exist. */
  predicate SourcesPresent(assets: Files, copies: seq<Copy>) {
    forall i | 0 <= i < |copies| :: copies[i].src in assets
  }

  /** With distinct destinations and every asset present, the copies leave
      each destination holding its asset and every other file as it was.
      This final state names no order, so the concurrent batch cannot race. */
  lemma {:induction false} CopyAllEffect(files: Files, assets: Files, copies: seq<Copy>)
    requires DistinctDests(copies) && SourcesPresent(assets, copies)
    ensures CopyAll(files, assets, copies).Ok?
    ensures forall f :: f in CopyAll(files, assets, copies).value <==> f in files || f in Dests(copies)
    ensures forall i | 0 <= i < |copies| ::
      && copies[i].dest in CopyAll(files, assets, copies).value
      && CopyAll(files, assets, copies).value[copies[i].dest] == assets[copies[i].src]
    ensures forall f | f in files && f !in Dests(copies) :: CopyAll(files, assets, copies).value[f] == files[f]
    decreases |copies|
  {
    if |copies| > 0 {
      var rest := copies[1..];
      var files' := files[copies[0].dest := assets[copies[0].src]];
      CopiesTail(assets, copies);
      CopyAllEffect(files', assets, rest);
      var r := CopyAll(files, assets, copies).value;
      assert r == CopyAll(files', assets, rest).value;
      forall i | 0 <= i < |copies|
        ensures r[copies[i].dest] == assets[copies[i].src]
      {
        if i > 0 {
          assert rest[i - 1] == copies[i];
        }
      }
    }
  }

  /** What the first copy leaves to the others: distinct destinations that
      do not include its own, and their assets. */
  lemma CopiesTail(assets: Files, copies: seq<Copy>)
    requires |copies| > 0 && DistinctDests(copies) && SourcesPresent(assets, copies)
    ensures DistinctDests(copies[1..]) && SourcesPresent(assets, copies[1..])
    ensures copies[0].dest !in Dests(copies[1..])
    ensures forall f :: f in Dests(copies) <==> f == copies[0].dest || f in Dests(copies[1..])
  {
    var rest := copies[1..];
    assert forall i | 0 <= i < |rest| :: rest[i] == copies[i + 1];
    assert Dests(copies) == [copies[0].dest] + Dests(rest);
  }

  /** Two listings of the same copies with distinct destinations give the
      same project, whatever order the copies finish in. */
  lemma CopyOrderIrrelevant(files: Files, assets: Files, c1: seq<Copy>, c2: seq<Copy>)
    requires DistinctDests(c1) && DistinctDests(c2)
    requires SourcesPresent(assets, c1) && SourcesPresent(assets, c2)
    requires forall c :: c in c1 <==> c in c2
    ensures CopyAll(files, assets, c1) == CopyAll(files, assets, c2)
  {
    CopyAllEffect(files, assets, c1);
    CopyAllEffect(files, assets, c2);
    var r1 := CopyAll(files, assets, c1).value;
    var r2 := CopyAll(files, assets, c2).value;
    DestsSubset(c1, c2);
    DestsSubset(c2, c1);
    forall f | f in r1
      ensures f in r2 && r1[f] == r2[f]
    {
      if f in Dests(c1) {
        SameContentAt(files, assets, c1, c2, f);
      }
    }
    forall f | f in r2
      ensures f in r1
    {
    }
    assert r1 == r2;
  }

  lemma DestIndex(copies: seq<Copy>, d: string) returns (i: nat)
    requires d in Dests(copies)
    ensures i < |copies| && copies[i].dest == d
  {
    i :| 0 <= i < |Dests(copies)| && Dests(copies)[i] == d;
  }

  lemma DestsSubset(c1: seq<Copy>, c2: seq<Copy>)
    requires forall c | c in c1 :: c in c2
    ensures forall d | d in Dests(c1) :: d in Dests(c2)
  {
    forall d | d in Dests(c1)
      ensures d in Dests(c2)
    {
      var i := DestIndex(c1, d);
      assert c1[i] in c2;
      var j :| 0 <= j < |c2| && c2[j] == c1[i];
      assert Dests(c2)[j] == d;
    }
  }

  lemma SameContentAt(files: Files, assets: Files, c1: seq<Copy>, c2: seq<Copy>, f: string)
    requires DistinctDests(c1) && DistinctDests(c2)
    requires SourcesPresent(assets, c1) && SourcesPresent(assets, c2)
    requires forall c :: c in c1 <==> c in c2
    requires f in Dests(c1)
    ensures CopyAll(files, assets, c1).Ok? && CopyAll(files, assets, c2).Ok?
    ensures f in CopyAll(files, assets, c1).value && f in CopyAll(files, assets, c2).value
    ensures CopyAll(files, assets, c1).value[f] == CopyAll(files, assets, c2).value[f]
  {
    CopyAllEffect(files, assets, c1);
    CopyAllEffect(files, assets, c2);
    var i := DestIndex(c1, f);
    assert c1[i] in c2;
    var j :| 0 <= j < |c2| && c2[j] == c1[i];
  }

  // ---------------------------------------------------------------------
  // A whole installer

  /** The copy batch, then the transforms; the package install is left to
      the package manager and does not touch the files here. */
  function RunInstaller(plan: InstallerPlan, assets: Files, files: Files): Result<Files> {
    match CopyAll(files, assets, plan.copies)
    case Missing(p) => Missing(p)
    case Ok(files') => RunJobs(files', plan.jobs)
  }

  /** A plan whose transformed files are all among its copies, with no two
      copies to one place and one job per file, never fails on a missing
      file once its assets exist, and each transformed file ends up as its
      callback made it from the fresh template copy. */
  lemma InstallerEffect(plan: InstallerPlan, assets: Files, files: Files)
    requires JobsTargetCopies(plan) && DistinctDests(plan.copies) && OneJobPerFile(plan.jobs)
    requires SourcesPresent(assets, plan.copies)
    ensures RunInstaller(plan, assets, files).Ok?
    ensures forall j | 0 <= j < |plan.jobs| ::
      exists i | 0 <= i < |plan.copies| ::
        && plan.copies[i].dest == plan.jobs[j].dest
        && plan.jobs[j].dest in RunInstaller(plan, assets, files).value
        && RunInstaller(plan, assets, files).value[plan.jobs[j].dest]
          == RunCallback(plan.jobs[j].callback, assets[plan.copies[i].src])
  {
    CopyAllEffect(files, assets, plan.copies);
    var copied := CopyAll(files, assets, plan.copies).value;
    RunJobsEffect(copied, plan.jobs);
    var r := RunInstaller(plan, assets, files).value;
    forall j | 0 <= j < |plan.jobs|
      ensures exists i | 0 <= i < |plan.copies| ::
        && plan.copies[i].dest == plan.jobs[j].dest
        && plan.jobs[j].dest in r
        && r[plan.jobs[j].dest] == RunCallback(plan.jobs[j].callback, assets[plan.copies[i].src])
    {
      var i := DestIndex(plan.copies, plan.jobs[j].dest);
      assert r[plan.jobs[j].dest] == RunCallback(plan.jobs[j].callback, copied[plan.jobs[j].dest]);
    }
  }

  /** Both installers' plans meet those conditions. */
  lemma InstallersWellFormed(packages: Packages)
    ensures
      var t := Trpc.Installer(packages);
      JobsTargetCopies(t) && DistinctDests(t.copies) && OneJobPerFile(t.jobs)
    ensures
      var n := NextAuth.Installer(packages);
      JobsTargetCopies(n) && DistinctDests(n.copies) && OneJobPerFile(n.jobs)
  {
    Trpc.JobsHaveCopies(packages);
    Trpc.CopiesAndJobsDistinct(packages);
    NextAuth.InstallerWellFormed(packages);
  }
}

=== FILE: plan.dfy ===
/** What an installer asks of the outside world and of the codemods: the
    packages to install, the template assets to copy, and the files to
    transform, each with the one callback its `transformFile` call runs. */
module Plan {

  /** Which optional packages the user selected. */
  datatype Packages = Packages(trpc: bool, tailwind: bool, nextAuth: bool, prisma: bool)

  /** A copy of a template asset (relative to the package root) to a file
      of the new project (relative to the project directory). */
  datatype Copy = Copy(src: string, dest: string)

  /** The callbacks passed to `transformFile`; the flags are the selection
      the callback closes over. */
  datatype Callback =
    | TrpcContext(usingAuth: bool, usingPrisma: bool)
    | TrpcIndexRouter
    | TrpcExampleRouter
    | NextAuthHandler
    | AppFile(usingNextAuth: bool, usingTrpc: bool)

  datatype FileJob = FileJob(dest: string, callback: Callback)

  /** One `runPkgManagerInstall` call. */
  datatype Install = Install(packages: seq<string>, devMode: bool)

  datatype InstallerPlan = InstallerPlan(install: Install, copies: seq<Copy>, jobs: seq<FileJob>)

  /** Every transformed file is one the same installer copies into place. */
  predicate JobsTargetCopies(plan: InstallerPlan) {
    forall j | 0 <= j < |plan.jobs| :: plan.jobs[j].dest in Dests(plan.copies)
  }

  /** The destinations of the copies, in order. */
  function Dests(copies: seq<Copy>): (r: seq<string>)
    ensures |r| == |copies|
    ensures forall i | 0 <= i < |copies| :: r[i] == copies[i].dest
  {
    seq(|copies|, i requires 0 <= i < |copies| => copies[i].dest)
  }

  /** No two copies write the same file, so running them concurrently is safe. */
  predicate DistinctDests(copies: seq<Copy>) {
    forall a, b | 0 <= a < b < |copies| :: copies[a].dest != copies[b].dest
  }

  /** Each file is transformed by at most one `transformFile` call. */
  predicate OneJobPerFile(jobs: seq<FileJob>) {
    forall a, b | 0 <= a < b < |jobs| :: jobs[a].dest != jobs[b].dest
  }

  /** Destinations of different lengths are different. */
  lemma DistinctByLength(copies: seq<Copy>)
    requires forall a, b | 0 <= a < b < |copies| :: |copies[a].dest| != |copies[b].dest|
    ensures DistinctDests(copies)
  {
  }

  lemma JobsDistinctByLength(jobs: seq<FileJob>)
    requires forall a, b | 0 <= a < b < |jobs| :: |jobs[a].dest| != |jobs[b].dest|
    ensures OneJobPerFile(jobs)
  {
  }
}

=== FILE: select_boilerplate.dfy ===
/** The boilerplate helpers: the landing page chosen for the selected
    packages, and the two codemods on `_app.tsx`. */
module SelectBoilerplate {
  import opened Ast
  import opened Locator
  import opened Source
  import opened Codemod
  import opened Plan
  import opened SessionWrap
  import opened ExportRename

  // ---------------------------------------------------------------------
  // The landing page

  const IndexAssetDir := "template/page-studs/index/"
  const IndexDest := "src/pages/index.tsx"

  /** The `index.tsx` variant that showcases the selection, or none.  The
      auth showcases are only picked without prisma. */
  function IndexFile(p: Packages): (r: Option<string>)
    ensures r == Some("with-auth-trpc-tw.tsx") <==> p.trpc && p.tailwind && p.nextAuth && !p.prisma
    ensures r == Some("with-auth-trpc.tsx") <==> p.trpc && !p.tailwind && p.nextAuth && !p.prisma
    ensures r == Some("with-trpc-tw.tsx") <==> p.trpc && p.tailwind && !(p.nextAuth && !p.prisma)
    ensures r == Some("with-trpc.tsx") <==> p.trpc && !p.tailwind && !(p.nextAuth && !p.prisma)
    ensures r == Some("with-tw.tsx") <==> !p.trpc && p.tailwind
    ensures r == None <==> !p.trpc && !p.tailwind
  {
    if p.trpc && p.tailwind && p.nextAuth && !p.prisma then Some("with-auth-trpc-tw.tsx")
    else if p.trpc && !p.tailwind && p.nextAuth && !p.prisma then Some("with-auth-trpc.tsx")
    else if p.trpc && p.tailwind then Some("with-trpc-tw.tsx")
    else if p.trpc && !p.tailwind then Some("with-trpc.tsx")
    else if !p.trpc && p.tailwind then Some("with-tw.tsx")
    else None
  }

  /** The copy `selectIndexFile` makes: one when a variant was chosen. */
  function IndexCopies(p: Packages): (r: seq<Copy>)
    ensures |r| <= 1
    ensures |r| == 1 <==> p.trpc || p.tailwind
    ensures |r| == 1 ==> r[0].dest == IndexDest && r[0].src == IndexAssetDir + IndexFile(p).value
  {
    match IndexFile(p)
    case None => []
    case Some(f) => [Copy(IndexAssetDir + f, IndexDest)]
  }

  /** Auth together with prisma gets the page auth alone would not get:
      the plain tRPC variant. */
  lemma AuthWithPrismaFallsBack(p: Packages)
    requires p.nextAuth && p.prisma
    ensures IndexFile(p) == IndexFile(Packages(p.trpc, p.tailwind, false, false))
  {
  }

  /** Without tRPC only tailwind matters. */
  lemma WithoutTrpcOnlyTailwind(p: Packages)
    requires !p.trpc
    ensures IndexFile(p) == IndexFile(Packages(false, p.tailwind, false, false))
    ensures IndexFile(p).Some? <==> p.tailwind
  {
  }

  /** The five landing pages shipped. */
  const Variants: seq<string> :=
    ["with-auth-trpc-tw.tsx", "with-auth-trpc.tsx", "with-trpc-tw.tsx", "with-trpc.tsx", "with-tw.tsx"]

  /** The same choice read off a grid: tRPC pages come in an auth showcase
      pair and a plain pair, each with and without tailwind. */
  function VariantIndex(p: Packages): (i: nat)
    requires p.trpc || p.tailwind
    ensures i < |Variants|
  {
    if !p.trpc then 4
    else (if p.nextAuth && !p.prisma then 0 else 2) + (if p.tailwind then 0 else 1)
  }

  /** The `if` chain and the grid agree on every selection, and nothing is
      chosen exactly when neither tRPC nor tailwind is in use. */
  lemma IndexFileIsGrid(p: Packages)
    ensures IndexFile(p) == if p.trpc || p.tailwind then Some(Variants[VariantIndex(p)]) else None
  {
  }

  // ---------------------------------------------------------------------
  // `_app.tsx`

  const AppDest := "src/pages/_app.tsx"

  const SessionProviderImport: Item := ImportItem("import { SessionProvider } from \"next-auth/react\"", [])
  const TrpcImport: Item := ImportItem("import { trpc } from \"../utils/trpc\";", [])

  lemma SessionImportKeepsCode(prog: Program)
    ensures View(AddImports(prog, [SessionProviderImport])) == View(prog)
  {
    AddImportsKeepsCode(prog, [SessionProviderImport]);
  }

  lemma TrpcImportKeepsCode(prog: Program)
    ensures View(AddImports(prog, [TrpcImport])) == View(prog)
  {
    AddImportsKeepsCode(prog, [TrpcImport]);
  }

  /** Import `SessionProvider`, then wrap every `Component` element. */
  function NextAuthTransform(prog: Program): (r: Program)
    ensures SameImports(AddImports(prog, [SessionProviderImport]).body, r.body)
    ensures View(r) == WrapAll(View(prog))
  {
    var p1 := AddImports(prog, [SessionProviderImport]);
    SessionImportKeepsCode(prog);
    WithView(p1, WrapAll(View(p1)))
  }

  /** Import `trpc`, then rename the identifiers under the default export. */
  function TrpcTransform(prog: Program): (r: Program)
    ensures SameImports(AddImports(prog, [TrpcImport]).body, r.body)
    ensures View(r) == RenameExport(View(prog))
  {
    var p1 := AddImports(prog, [TrpcImport]);
    TrpcImportKeepsCode(prog);
    WithView(p1, RenameExport(View(p1)))
  }

  /** The one `transformFile` callback on `_app.tsx`: next-auth first, then tRPC. */
  function AppCallback(usingNextAuth: bool, usingTrpc: bool, prog: Program): Program {
    var afterAuth := if usingNextAuth then NextAuthTransform(prog) else prog;
    if usingTrpc then TrpcTransform(afterAuth) else afterAuth
  }

  /** The callback runs the next-auth codemod before the tRPC one, each
      only when its package is used. */
  lemma AppCallbackOrder(usingNextAuth: bool, usingTrpc: bool, prog: Program)
    ensures AppCallback(usingNextAuth, usingTrpc, prog)
      == if usingNextAuth && usingTrpc then TrpcTransform(NextAuthTransform(prog))
         else if usingNextAuth then NextAuthTransform(prog)
         else if usingTrpc then TrpcTransform(prog)
         else prog
  {
  }

  /** The `_app.tsx` job, closing over the two flags. */
  function AppJob(p: Packages): FileJob {
    FileJob(AppDest, AppFile(p.nextAuth, p.trpc))
  }

  /** Each transform adds exactly one import: the body grows by one, the
      import sits at the insertion point and, with it taken out, every other
      item keeps its position and every import item is untouched. */
  lemma AppTransformsAddOneImport(prog: Program)
    ensures |NextAuthTransform(prog).body| == |prog.body| + 1
    ensures |TrpcTransform(prog).body| == |prog.body| + 1
    ensures
      var k := InsertionPoint(prog.body);
      var a := NextAuthTransform(prog).body;
      var t := TrpcTransform(prog).body;
      && a[k] == SessionProviderImport
      && t[k] == TrpcImport
      && SameImports(prog.body, a[..k] + a[k + 1..])
      && SameImports(prog.body, t[..k] + t[k + 1..])
  {
    var k := InsertionPoint(prog.body);
    AddImportsRemovable(prog, [SessionProviderImport]);
    AddImportsRemovable(prog, [TrpcImport]);
    var a := AddImports(prog, [SessionProviderImport]).body;
    var t := AddImports(prog, [TrpcImport]).body;
    assert a[k..k + 1][0] == a[k];
    assert t[k..k + 1][0] == t[k];
    SameImportsCut(a, NextAuthTransform(prog).body, k);
    SameImportsCut(t, TrpcTransform(prog).body, k);
  }

  /** With both packages the tree is wrapped first and renamed second. */
  lemma AppBothComposes(prog: Program)
    ensures View(AppCallback(true, true, prog)) == RenameExport(WrapAll(View(prog)))
  {
  }

  /** With both packages the two imports end up side by side right behind
      the file's last import, `SessionProvider` first. */
  lemma AppImportsInOrder(prog: Program)
    ensures
      var k := InsertionPoint(prog.body);
      var r := AppCallback(true, true, prog);
      && k + 2 <= |r.body|
      && r.body[k..k + 2] == [SessionProviderImport, TrpcImport]
  {
    TrpcImportAfter(prog, NextAuthTransform(prog));
  }

  lemma TrpcImportAfter(prog: Program, a: Program)
    requires SameImports(AddImports(prog, [SessionProviderImport]).body, a.body)
    ensures
      var k := InsertionPoint(prog.body);
      var r := TrpcTransform(a);
      && k + 2 <= |r.body|
      && r.body[k..k + 2] == [SessionProviderImport, TrpcImport]
  {
    TwoImportsKept(prog, SessionProviderImport, a, TrpcImport, TrpcTransform(a));
  }

  /** Without a `Component` element the next-auth transform only adds its import. */
  lemma NoComponentImportOnly(prog: Program)
    requires Find(View(prog), Target) == []
    ensures View(NextAuthTransform(prog)) == View(prog)
  {
    NoComponentNoChange(View(prog));
  }

  /** Without a default export the tRPC transform only adds its import. */
  lemma NoExportImportOnly(prog: Program)
    requires Find(View(prog), AnyExportDefault) == []
    ensures View(TrpcTransform(prog)) == View(prog)
  {
    NoExportNoRename(View(prog));
  }

  /** With one default export, the tRPC transform renames exactly the
      identifiers below it and leaves every other node's kind, and the
      shape of the code, alone. */
  lemma TrpcRenamesUnderExport(prog: Program, a: Path, q: Path)
    requires Find(View(prog), AnyExportDefault) == [a] && ValidPath(View(prog), q)
    ensures
      var v := View(prog);
      var v' := View(TrpcTransform(prog));
      && ValidPath(v', q)
      && |Get(v', q).kids| == |Get(v, q).kids|
      && Get(v', q).kind
        == if IsPrefix(a, q) && |q| > |a| && Get(v, q).kind.Ident?
           then Ident(Callee + "(" + Get(v, q).kind.name + ")")
           else Get(v, q).kind
  {
    RenameUnderSingleExport(View(prog), a, q);
  }

  /** The `SessionProvider` elements of `_app.tsx` grow by exactly the
      number of `Component` elements found, and none of those is lost. */
  lemma NextAuthWrapsEachComponent(prog: Program)
    ensures
      var v := View(prog);
      var v' := View(NextAuthTransform(prog));
      && |Find(v', Target)| == |Find(v, Target)|
      && |Find(v', JsxNamed(Provider))| == |Find(v, JsxNamed(Provider))| + |Find(v, Target)|
  {
    WrapAllCounts(View(prog));
  }
}

=== FILE: session_wrap.dfy ===
/** The `_app.tsx` next-auth codemod's tree edit: every JSX element named
    `Component` is replaced by a `SessionProvider` element holding it.

    `find` collects the paths first and each `replace` puts the original
    node object inside its wrapper, so a `Component` nested in another one
    is later wrapped inside the outer element's (moved) object.  The result
    is the bottom-up map `Wrap` below. */
module SessionWrap {
  import opened Ast
  import opened Locator

  const Tag := "Component"
  const Provider := "SessionProvider"
  const Target: Shape := JsxNamed(Tag)

  const Opening: Node :=
    Node(JsxOpening, [
      Name(Provider),
      Node(JsxAttribute, [Name("session"), Node(JsxExprContainer, [Name("pageProps.session")])])
    ])
  const Closing: Node := Node(JsxClosing, [Name(Provider)])
  const Newline: Node := Node(JsxText("\n"), [])

  /** `<SessionProvider session={pageProps.session}>` newline, `inner`,
      newline `</SessionProvider>`. */
  function SessionProvider(inner: Node): (r: Node)
    ensures Matches(r, JsxNamed(Provider)) && !Matches(r, Target)
    ensures |r.kids| == 5 && r.kids[3] == inner
    ensures r.kids[0] == Node(JsxOpening, [
      Name("SessionProvider"),
      Node(JsxAttribute, [Name("session"), Node(JsxExprContainer, [Name("pageProps.session")])])
    ])
    ensures r.kids[1] == Node(JsxClosing, [Name("SessionProvider")])
    ensures r.kids[2] == r.kids[4] == Node(JsxText("\n"), [])
  {
    Node(JsxElement, [Opening, Closing, Newline, inner, Newline])
  }

  /** A wrapper the codemod builds: a `SessionProvider` element with its
      three children. */
  predicate IsWrapper(n: Node) {
    Matches(n, JsxNamed(Provider)) && |n.kids| == 5
  }

  /** Every `Component` element of the subtree, innermost first, replaced by
      a wrapper around it. */
  function Wrap(n: Node): (r: Node)
    ensures r.kind == if Matches(n, Target) then JsxElement else n.kind
    ensures Matches(n, Target) ==> IsWrapper(r) && r.kids[3].kind == n.kind && |r.kids[3].kids| == |n.kids|
    ensures !Matches(n, Target) ==> |r.kids| == |n.kids|
    decreases n
  {
    var n' := Node(n.kind, seq(|n.kids|, i requires 0 <= i < |n.kids| => Wrap(n.kids[i])));
    if Matches(n, Target) then SessionProvider(n') else n'
  }

  /** The wrapped tree below a node that is not itself replaced. */
  function Mapped(n: Node): (r: Node)
    ensures r.kind == n.kind && |r.kids| == |n.kids|
    ensures forall i | 0 <= i < |n.kids| :: r.kids[i] == Wrap(n.kids[i])
  {
    Node(n.kind, seq(|n.kids|, i requires 0 <= i < |n.kids| => Wrap(n.kids[i])))
  }

  lemma WrapUnfold(n: Node)
    ensures Wrap(n) == if Matches(n, Target) then SessionProvider(Mapped(n)) else Mapped(n)
  {
  }

  /** The whole codemod on the code view: `find` skips the start node, so
      only its descendants are replaced. */
  function WrapAll(v: Node): (r: Node)
    ensures r.kind == v.kind && |r.kids| == |v.kids|
  {
    Mapped(v)
  }

  /** After the wrap, an element has a given name exactly when it had it
      before, except that each `Component` element turned into a
      `SessionProvider` one. */
  lemma WrapMatches(n: Node, tag: string)
    ensures Matches(Wrap(n), JsxNamed(tag))
      <==> if Matches(n, Target) then tag == Provider else Matches(n, JsxNamed(tag))
  {
    WrapUnfold(n);
    if Matches(n, Target) {
      ProviderMatches(Mapped(n), tag);
    } else {
      MappedMatches(n, tag);
    }
  }

  lemma ProviderMatches(inner: Node, tag: string)
    ensures Matches(SessionProvider(inner), JsxNamed(tag)) <==> tag == Provider
  {
    assert SessionProvider(inner).kids[0] == Opening;
  }

  lemma MappedMatches(n: Node, tag: string)
    ensures Matches(Mapped(n), JsxNamed(tag)) <==> Matches(n, JsxNamed(tag))
  {
    if |n.kids| > 0 {
      var o := n.kids[0];
      var o' := Mapped(n).kids[0];
      assert o' == Wrap(o);
      if o.kind == JsxOpening && |o.kids| > 0 {
        WrapUnfold(o);
        assert o' == Mapped(o);
        assert o'.kids[0] == Wrap(o.kids[0]);
      }
    }
  }

  // ---------------------------------------------------------------------
  // Every Component ends up inside a wrapper

  /** Every `Component` element sits as the held child of a wrapper. */
  predicate Guarded(n: Node)
    decreases n
  {
    forall i | 0 <= i < |n.kids| ::
      && (Matches(n.kids[i], Target) ==> IsWrapper(n) && i == 3)
      && Guarded(n.kids[i])
  }

  /** No node of the subtree matches the query. */
  predicate Clear(n: Node, s: Shape)
    decreases n
  {
    !Matches(n, s) && forall i | 0 <= i < |n.kids| :: Clear(n.kids[i], s)
  }

  lemma ClearGuarded(n: Node)
    requires forall i | 0 <= i < |n.kids| :: Clear(n.kids[i], Target)
    ensures Guarded(n)
  {
    forall i | 0 <= i < |n.kids|
      ensures Guarded(n.kids[i])
    {
      ClearGuarded(n.kids[i]);
    }
  }

  lemma {:induction false} MappedGuarded(n: Node)
    ensures Guarded(Mapped(n))
    decreases n, 0
  {
    var m := Mapped(n);
    forall i | 0 <= i < |m.kids|
      ensures !Matches(m.kids[i], Target) && Guarded(m.kids[i])
    {
      WrapMatches(n.kids[i], Tag);
      WrapGuarded(n.kids[i]);
    }
  }

  /** The wrap leaves no `Component` element outside a wrapper. */
  lemma {:induction false} WrapGuarded(n: Node)
    ensures Guarded(Wrap(n))
    decreases n, 1
  {
    WrapUnfold(n);
    MappedGuarded(n);
    if Matches(n, Target) {
      MappedMatches(n, Tag);
      ProviderGuarded(Mapped(n));
    }
  }

  /** The parts the wrapper adds hold no element at all, so no element
      query finds anything in them. */
  lemma PartsClear(tag: string)
    ensures Clear(Opening, JsxNamed(tag)) && Clear(Closing, JsxNamed(tag)) && Clear(Newline, JsxNamed(tag))
  {
    var pp := Name("pageProps.session");
    var ec := Node(JsxExprContainer, [pp]);
    ClearNonElement(Ident(Provider), [], tag);
    ClearNonElement(Ident("session"), [], tag);
    ClearNonElement(Ident("pageProps.session"), [], tag);
    ClearNonElement(JsxExprContainer, [pp], tag);
    ClearNonElement(JsxAttribute, [Name("session"), ec], tag);
    ClearNonElement(JsxOpening, Opening.kids, tag);
    ClearNonElement(JsxClosing, Closing.kids, tag);
    ClearNonElement(JsxText("\n"), [], tag);
  }

  lemma ClearNonElement(k: Kind, ks: seq<Node>, tag: string)
    requires k != JsxElement
    requires forall i | 0 <= i < |ks| :: Clear(ks[i], JsxNamed(tag))
    ensures Clear(Node(k, ks), JsxNamed(tag))
  {
  }

  lemma ProviderGuarded(inner: Node)
    requires Guarded(inner) && Matches(inner, Target)
    ensures Guarded(SessionProvider(inner))
  {
    PartsGuarded();
    GuardedFromKids(SessionProvider(inner));
  }

  lemma PartsGuarded()
    ensures Guarded(Opening) && Guarded(Closing) && Guarded(Newline)
    ensures !Matches(Opening, Target) && !Matches(Closing, Target) && !Matches(Newline, Target)
  {
    PartsClear(Tag);
    ClearGuarded(Opening);
    ClearGuarded(Closing);
    ClearGuarded(Newline);
  }

  lemma GuardedFromKids(n: Node)
    requires forall i | 0 <= i < |n.kids| :: Guarded(n.kids[i])
    requires forall i | 0 <= i < |n.kids| :: Matches(n.kids[i], Target) ==> IsWrapper(n) && i == 3
    ensures Guarded(n)
  {
  }

  // ---------------------------------------------------------------------
  // Taking the wrappers off again

  /** Every wrapper replaced by the element it holds. */
  function Unwrap(n: Node): Node
    decreases n
  {
    if IsWrapper(n) then Unwrap(n.kids[3])
    else Node(n.kind, seq(|n.kids|, i requires 0 <= i < |n.kids| => Unwrap(n.kids[i])))
  }

  /** Removing the wrappers gives back the original tree, provided it held
      no `SessionProvider` element already. */
  lemma {:induction false} UnwrapWrap(n: Node)
    requires Clear(n, JsxNamed(Provider))
    ensures Unwrap(Wrap(n)) == n
    decreases n, 1
  {
    WrapUnfold(n);
    UnwrapMapped(n);
  }

  lemma {:induction false} UnwrapMapped(n: Node)
    requires Clear(n, JsxNamed(Provider))
    ensures Unwrap(Mapped(n)) == n
    decreases n, 0
  {
    var m := Mapped(n);
    MappedMatches(n, Provider);
    forall i | 0 <= i < |n.kids|
      ensures Unwrap(m.kids[i]) == n.kids[i]
    {
      UnwrapWrap(n.kids[i]);
    }
  }

  // ---------------------------------------------------------------------
  // No Component, no change

  /** When `find` reports nothing below a node, no child matches and
      nothing below a child does. */
  lemma {:induction false} FindKidsEmpty(ks: seq<Node>, s: Shape, i: nat)
    requires i <= |ks| && FindKids(ks, s, i) == []
    ensures forall j | i <= j < |ks| :: !Matches(ks[j], s) && Find(ks[j], s) == []
    decreases |ks| - i
  {
    if i < |ks| {
      assert |Under(i, Find(ks[i], s))| == |Find(ks[i], s)|;
      FindKidsEmpty(ks, s, i + 1);
    }
  }

  lemma {:induction false} MappedUnchanged(n: Node)
    requires Find(n, Target) == []
    ensures Mapped(n) == n
    decreases n
  {
    FindKidsEmpty(n.kids, Target, 0);
    forall i | 0 <= i < |n.kids|
      ensures Wrap(n.kids[i]) == n.kids[i]
    {
      WrapUnfold(n.kids[i]);
      MappedUnchanged(n.kids[i]);
    }
  }

  /** Without a `Component` element the codemod changes nothing. */
  lemma NoComponentNoChange(v: Node)
    requires Find(v, Target) == []
    ensures WrapAll(v) == v
  {
    MappedUnchanged(v);
  }

  // ---------------------------------------------------------------------
  // One wrapper per Component found

  /** The matches in a subtree, its root included. */
  function Hits(n: Node, s: Shape): nat {
    (if Matches(n, s) then 1 else 0) + |Find(n, s)|
  }

  lemma KidsStep(ks: seq<Node>, s: Shape, i: nat)
    requires i < |ks|
    ensures |FindKids(ks, s, i)| == Hits(ks[i], s) + |FindKids(ks, s, i + 1)|
  {
    assert |Under(i, Find(ks[i], s))| == |Find(ks[i], s)|;
  }

  lemma {:induction false} ClearKids(ks: seq<Node>, s: Shape, i: nat)
    requires i <= |ks|
    requires forall j | i <= j < |ks| :: Clear(ks[j], s)
    ensures FindKids(ks, s, i) == []
    decreases ks, |ks| - i
  {
    if i < |ks| {
      ClearKids(ks[i].kids, s, 0);
      ClearKids(ks, s, i + 1);
      assert Under(i, []) == [];
    }
  }

  /** The wrapper adds one `SessionProvider` element and nothing else that
      either query looks for. */
  lemma ProviderCounts(m: Node)
    ensures Hits(SessionProvider(m), Target) == Hits(m, Target)
    ensures Hits(SessionProvider(m), JsxNamed(Provider)) == 1 + Hits(m, JsxNamed(Provider))
  {
    PartsMissed(Tag);
    PartsMissed(Provider);
    FiveKids(JsxElement, Opening, Closing, Newline, m, Newline, Target);
    FiveKids(JsxElement, Opening, Closing, Newline, m, Newline, JsxNamed(Provider));
  }

  /** What `find` reports below a node with five children. */
  lemma FiveKids(k: Kind, a: Node, b: Node, c: Node, d: Node, e: Node, s: Shape)
    ensures |Find(Node(k, [a, b, c, d, e]), s)| == Hits(a, s) + Hits(b, s) + Hits(c, s) + Hits(d, s) + Hits(e, s)
  {
    var ks := [a, b, c, d, e];
    KidsStep(ks, s, 0);
    KidsStep(ks, s, 1);
    KidsStep(ks, s, 2);
    KidsStep(ks, s, 3);
    KidsStep(ks, s, 4);
  }

  lemma PartsMissed(tag: string)
    ensures
      var s := JsxNamed(tag);
      Hits(Opening, s) == 0 && Hits(Closing, s) == 0 && Hits(Newline, s) == 0
  {
    var s := JsxNamed(tag);
    PartsClear(tag);
    ClearKids(Opening.kids, s, 0);
    ClearKids(Closing.kids, s, 0);
    ClearKids(Newline.kids, s, 0);
  }

  /** Each `Component` element keeps its place and gains one wrapper. */
  lemma {:induction false} WrapCounts(k: Node)
    ensures Hits(Wrap(k), Target) == Hits(k, Target)
    ensures Hits(Wrap(k), JsxNamed(Provider)) == Hits(k, JsxNamed(Provider)) + Hits(k, Target)
    decreases k, 2
  {
    WrapUnfold(k);
    MappedCounts(k);
    MappedMatches(k, Tag);
    MappedMatches(k, Provider);
    if Matches(k, Target) {
      ProviderCounts(Mapped(k));
    }
  }

  /** The whole codemod keeps every `Component` element and adds exactly one
      `SessionProvider` element per element the `find` reports. */
  lemma {:induction false} MappedCounts(n: Node)
    ensures |Find(Mapped(n), Target)| == |Find(n, Target)|
    ensures |Find(Mapped(n), JsxNamed(Provider))| == |Find(n, JsxNamed(Provider))| + |Find(n, Target)|
    decreases n, 1
  {
    KidsCounts(n, 0);
  }

  lemma {:induction false} KidsCounts(n: Node, i: nat)
    requires i <= |n.kids|
    ensures |FindKids(Mapped(n).kids, Target, i)| == |FindKids(n.kids, Target, i)|
    ensures |FindKids(Mapped(n).kids, JsxNamed(Provider), i)|
      == |FindKids(n.kids, JsxNamed(Provider), i)| + |FindKids(n.kids, Target, i)|
    decreases n, 0, |n.kids| - i
  {
    if i < |n.kids| {
      var m := Mapped(n);
      WrapCounts(n.kids[i]);
      KidsCounts(n, i + 1);
      KidsStep(m.kids, Target, i);
      KidsStep(n.kids, Target, i);
      KidsStep(m.kids, JsxNamed(Provider), i);
      KidsStep(n.kids, JsxNamed(Provider), i);
    }
  }

  lemma WrapAllCounts(v: Node)
    ensures |Find(WrapAll(v), Target)| == |Find(v, Target)|
    ensures |Find(WrapAll(v), JsxNamed(Provider))| == |Find(v, JsxNamed(Provider))| + |Find(v, Target)|
  {
    MappedCounts(v);
  }
}

=== FILE: source.dfy ===
/** One parsed source file, as the codemods see it through jscodeshift.

    The program body is a list of top-level items.  Import declarations can
    only stand at the top level of an ECMAScript module, so they are items of
    their own (opaque, with their leading line comments) and never occur
    inside code.  Every other top-level statement is a `Code` tree.

    The locator runs over the code view: a virtual root whose children are
    the code items in order.  No import declaration contains a node that any
    of the codemods' shapes looks for, so searching the code view finds what
    searching the whole file finds. */
module Source {
  import opened Ast
  import opened Locator

  datatype Item =
    | ImportItem(text: string, comments: seq<string>)
    | Code(node: Node)

  datatype Program = Program(body: seq<Item>)

  predicate HasImport(body: seq<Item>) {
    exists i | 0 <= i < |body| :: body[i].ImportItem?
  }

  predicate AllImports(items: seq<Item>) {
    forall i | 0 <= i < |items| :: items[i].ImportItem?
  }

  /** The tree an item contributes to the code view: none for an import. */
  function CodeOf(it: Item): (r: seq<Node>)
    ensures |r| <= 1
  {
    if it.Code? then [it.node] else []
  }

  /** The code items of a body, in order. */
  function Codes(body: seq<Item>): (r: seq<Node>)
    ensures |r| <= |body|
  {
    if |body| == 0 then [] else CodeOf(body[0]) + Codes(body[1..])
  }

  lemma {:induction false} CodesConcat(a: seq<Item>, b: seq<Item>)
    ensures Codes(a + b) == Codes(a) + Codes(b)
  {
    if |a| == 0 {
      assert a + b == b;
    } else {
      assert (a + b)[0] == a[0];
      assert (a + b)[1..] == a[1..] + b;
      CodesConcat(a[1..], b);
      assert CodeOf(a[0]) + (Codes(a[1..]) + Codes(b)) == (CodeOf(a[0]) + Codes(a[1..])) + Codes(b);
    }
  }

  lemma {:induction false} CodesOfImports(items: seq<Item>)
    requires AllImports(items)
    ensures Codes(items) == []
  {
    if |items| > 0 {
      CodesOfImports(items[1..]);
    }
  }

  /** Positions are the same and every import item is untouched. */
  predicate SameImports(a: seq<Item>, b: seq<Item>) {
    && |a| == |b|
    && (forall i | 0 <= i < |a| :: a[i].Code? == b[i].Code?)
    && (forall i | 0 <= i < |a| :: a[i].ImportItem? ==> a[i] == b[i])
  }

  /** `body` with its code items replaced, in order, by `cs`. */
  function SetCodes(body: seq<Item>, cs: seq<Node>): (r: seq<Item>)
    requires |cs| == |Codes(body)|
    ensures SameImports(body, r)
    ensures Codes(r) == cs
  {
    if |body| == 0 then []
    else if body[0].Code? then [Code(cs[0])] + SetCodes(body[1..], cs[1..])
    else [body[0]] + SetCodes(body[1..], cs)
  }

  /** The code view the locator searches. */
  function View(prog: Program): Node {
    Node(Root, Codes(prog.body))
  }

  function WithView(prog: Program, v: Node): (r: Program)
    requires |v.kids| == |Codes(prog.body)|
    ensures SameImports(prog.body, r.body)
    ensures View(r) == Node(Root, v.kids)
  {
    Program(SetCodes(prog.body, v.kids))
  }

  /** After the edit at `p`, the edited node sits at `p`, every node
      outside it and its ancestors is where it was, and each ancestor keeps
      its kind and number of children. */
  ghost predicate EditedAt(v: Node, v': Node, p: Path, e: Edit)
    requires ValidPath(v, p)
  {
    && ValidPath(v', p) && Get(v', p) == Apply(e, Get(v, p))
    && (forall q | ValidPath(v, q) && Disjoint(p, q) :: ValidPath(v', q) && Get(v', q) == Get(v, q))
    && (forall a | IsPrefix(a, p) && |a| < |p| ::
          && ValidPath(v, a) && ValidPath(v', a)
          && Get(v', a).kind == Get(v, a).kind
          && |Get(v', a).kids| == |Get(v, a).kids|)
  }

  /** The outcome of locate-then-edit on a code view: on a miss nothing
      changed; on a hit the edit was applied to the first located node and
      everything outside it and its ancestors stayed put. */
  ghost predicate EditedFirst(v: Node, v': Node, q: seq<Shape>, e: Edit)
    requires |q| > 0
  {
    match First(v, q)
    case None => v' == v
    case Some(p) => EditedAt(v, v', p, e)
  }

  /** Locate, then mutate: `program.find(q...).at(0).forEach(edit)`.
      A locator miss leaves the program as it was. */
  function EditFirst(prog: Program, q: seq<Shape>, e: Edit): (r: Program)
    requires |q| > 0
    ensures SameImports(prog.body, r.body)
    ensures First(View(prog), q).None? ==> r == prog
    ensures First(View(prog), q).Some? ==> EditedAt(View(prog), View(r), First(View(prog), q).value, e)
    ensures First(View(prog), q).Some? ==> View(r) == Update(View(prog), First(View(prog), q).value, e)
  {
    var v := View(prog);
    match First(v, q)
    case None => prog
    case Some(p) =>
      var v' := Update(v, p, e);
      UpdateAt(v, p, e);
      forall q | ValidPath(v, q) && Disjoint(p, q)
        ensures ValidPath(v', q) && Get(v', q) == Get(v, q)
      {
        UpdateElsewhere(v, p, e, q);
      }
      forall a | IsPrefix(a, p) && |a| < |p|
        ensures ValidPath(v, a) && ValidPath(v', a) && Get(v', a).kind == Get(v, a).kind && |Get(v', a).kids| == |Get(v, a).kids|
      {
        UpdateAncestor(v, p, e, a);
      }
      WithView(prog, v')
  }

  lemma SameImportsTrans(a: seq<Item>, b: seq<Item>, c: seq<Item>)
    requires SameImports(a, b) && SameImports(b, c)
    ensures SameImports(a, c)
  {
  }

  /** Cutting the same position out of both sides keeps the imports. */
  lemma SameImportsCut(a: seq<Item>, b: seq<Item>, k: nat)
    requires SameImports(a, b) && k < |a|
    ensures SameImports(a[..k] + a[k + 1..], b[..k] + b[k + 1..])
  {
    var a', b' := a[..k] + a[k + 1..], b[..k] + b[k + 1..];
    assert forall i | 0 <= i < |a'| :: a'[i] == (if i < k then a[i] else a[i + 1]);
    assert forall i | 0 <= i < |b'| :: b'[i] == (if i < k then b[i] else b[i + 1]);
  }

  /** A run of import items is carried over unchanged. */
  lemma SameImportsSlice(a: seq<Item>, b: seq<Item>, i: nat, j: nat)
    requires SameImports(a, b) && i <= j <= |a| && AllImports(a[i..j])
    ensures b[i..j] == a[i..j]
  {
    forall t | i <= t < j
      ensures b[t] == a[t]
    {
      assert a[i..j][t - i] == a[t];
    }
  }

  /** A run of imports found at `i` is found at `i` again. */
  lemma SameImportsKeep(a: seq<Item>, b: seq<Item>, i: nat, xs: seq<Item>)
    requires SameImports(a, b) && i + |xs| <= |a| && a[i..i + |xs|] == xs && AllImports(xs)
    ensures b[i..i + |xs|] == xs
  {
    SameImportsSlice(a, b, i, i + |xs|);
  }

  lemma AllImportsConcat(s1: seq<Item>, s2: seq<Item>)
    requires AllImports(s1) && AllImports(s2)
    ensures AllImports(s1 + s2)
  {
    forall i | 0 <= i < |s1| + |s2|
      ensures (s1 + s2)[i].ImportItem?
    {
      if i < |s1| {
        assert (s1 + s2)[i] == s1[i];
      } else {
        assert (s1 + s2)[i] == s2[i - |s1|];
      }
    }
  }
}

=== FILE: trpc.dfy ===
/** The tRPC installer: the assets it copies, and the codemods it runs on
    the tRPC context file and the two routers. */
module Trpc {
  import opened Ast
  import opened Locator
  import opened Source
  import opened Codemod
  import opened Frame
  import opened Plan

  const Dependencies: seq<string> := [
    "react-query@3.39.2",
    "superjson",
    "@trpc/server@experimental",
    "@trpc/client@experimental",
    "@trpc/next@experimental",
    "@trpc/react@experimental"
  ]

  const AssetDir := "template/addons/trpc/"
  const ContextDest := "src/server/trpc/context.ts"
  const ServerUtilsDest := "src/server/trpc/utils.ts"
  const AuthRouterDest := "src/server/trpc/router/auth.ts"
  const IndexRouterDest := "src/server/trpc/router/index.ts"
  const ExampleRouterDest := "src/server/trpc/router/example.ts"

  /** The server-utils asset: the session-aware one when auth is in use. */
  function ServerUtilFile(usingAuth: bool): (f: string)
    ensures f == "auth-server-utils.ts" <==> usingAuth
    ensures f == "server-utils.ts" <==> !usingAuth
  {
    if usingAuth then "auth-server-utils.ts" else "server-utils.ts"
  }

  /** The copies of the `Promise.all` batch, in the order they are listed. */
  function Copies(usingAuth: bool): seq<Copy> {
    [
      Copy(AssetDir + "api-handler.ts", "src/pages/api/trpc/[trpc].ts"),
      Copy(AssetDir + "utils.ts", "src/utils/trpc.ts"),
      Copy(AssetDir + ServerUtilFile(usingAuth), ServerUtilsDest),
      Copy(AssetDir + "base-context.ts", ContextDest),
      Copy(AssetDir + "index-router.ts", IndexRouterDest),
      Copy(AssetDir + "example-router.ts", ExampleRouterDest)
    ]
    + (if usingAuth then [Copy(AssetDir + "auth-router.ts", AuthRouterDest)] else [])
  }

  /** The `transformFile` calls, in the order they are awaited. */
  function Jobs(usingAuth: bool, usingPrisma: bool): seq<FileJob> {
    [FileJob(ContextDest, TrpcContext(usingAuth, usingPrisma))]
    + (if usingAuth then [FileJob(IndexRouterDest, TrpcIndexRouter)] else [])
    + (if usingPrisma then [FileJob(ExampleRouterDest, TrpcExampleRouter)] else [])
  }

  function Installer(packages: Packages): InstallerPlan {
    InstallerPlan(
      Install(Dependencies, false),
      Copies(packages.nextAuth),
      Jobs(packages.nextAuth, packages.prisma))
  }

  // ---------------------------------------------------------------------
  // The codemods

  const ContextBlock: seq<Shape> := [DeclaratorNamed("createContext"), AnyBlock]
  const ContextObject: seq<Shape> := [DeclaratorNamed("createContext"), AnyReturn, AnyObject]
  const AppRouterObject: seq<Shape> := [DeclaratorNamed("appRouter"), AnyObject]
  const ExampleRouterObject: seq<Shape> := [DeclaratorNamed("exampleRouter"), AnyObject]

  const AuthImports: seq<Item> := [
    ImportItem("import { unstable_getServerSession as getServerSession } from \"next-auth\";\n", []),
    ImportItem("import { authOptions as nextAuthOptions } from \"../../pages/api/auth/[...nextauth]\";\n", [])
  ]
  const PrismaImports: seq<Item> := [ImportItem("import { prisma } from \"../db/client\";", [])]
  const AuthRouterImports: seq<Item> := [ImportItem("import { authRouter } from \"./auth\";", [])]

  lemma AuthImportsKeepCode(prog: Program)
    ensures View(AddImports(prog, AuthImports)) == View(prog)
  {
    AddImportsKeepsCode(prog, AuthImports);
  }

  lemma PrismaImportsKeepCode(prog: Program)
    ensures View(AddImports(prog, PrismaImports)) == View(prog)
  {
    AddImportsKeepsCode(prog, PrismaImports);
  }

  lemma AuthRouterImportsKeepCode(prog: Program)
    ensures View(AddImports(prog, AuthRouterImports)) == View(prog)
  {
    AddImportsKeepsCode(prog, AuthRouterImports);
  }

  const SessionFetch: Node :=
    Node(Stmt("const session = await getServerSession(opts.req, opts.res, nextAuthOptions);"), [])

  const AuthRoute: Node := Prop("auth", Name("authRouter"))

  /** `getAll: t.procedure.query(({ text }) => { return ctx.prisma.example.findMany(); })` */
  const GetAll: Node :=
    Prop("getAll",
      Node(Call, [
        Name("t.procedure.query"),
        Node(Arrow, [
          Node(ObjectPattern, [Shorthand("text")]),
          Node(Block, [Node(Return, [Node(Call, [Name("ctx.prisma.example.findMany")])])])
        ])
      ]))

  /** Make the session fetch the first statement of the first block inside
      the `createContext` declarator. */
  function WithSessionFetch(prog: Program): (r: Program)
    ensures SameImports(prog.body, r.body)
    ensures First(View(prog), ContextBlock).None? ==> r == prog
    ensures First(View(prog), ContextBlock).Some? ==>
      var pb := First(View(prog), ContextBlock).value;
      && EditedAt(View(prog), View(r), pb, Prepend(SessionFetch))
      && Get(View(r), pb) == Node(Block, [SessionFetch] + Get(View(prog), pb).kids)
  {
    EditFirst(prog, ContextBlock, Prepend(SessionFetch))
  }

  /** Append `{ name }` as the last property of the first object literal
      under a return statement of `createContext`. */
  function WithContextProperty(prog: Program, name: string): (r: Program)
    ensures SameImports(prog.body, r.body)
    ensures First(View(prog), ContextObject).None? ==> r == prog
    ensures First(View(prog), ContextObject).Some? ==>
      var po := First(View(prog), ContextObject).value;
      && EditedAt(View(prog), View(r), po, Append(Shorthand(name)))
      && Get(View(r), po) == Node(Object, Get(View(prog), po).kids + [Shorthand(name)])
  {
    assert ContextObject[|ContextObject| - 1] == AnyObject;
    EditFirst(prog, ContextObject, Append(Shorthand(name)))
  }

  function ContextAuthTransform(prog: Program): Program {
    SessionEdits(AddImports(prog, AuthImports))
  }

  /** The two edits of the auth branch: fetch the session, then put it in
      the context object. */
  function SessionEdits(prog: Program): Program {
    WithContextProperty(WithSessionFetch(prog), "session")
  }

  function ContextPrismaTransform(prog: Program): Program {
    WithContextProperty(AddImports(prog, PrismaImports), "prisma")
  }

  /** Append `auth: authRouter` as the last property of the first object
      literal inside the `appRouter` declarator. */
  function IndexRouterTransform(prog: Program): (r: Program)
    ensures SameImports(AddImports(prog, AuthRouterImports).body, r.body)
    ensures First(View(prog), AppRouterObject).None? ==> r == AddImports(prog, AuthRouterImports)
    ensures EditedFirst(View(prog), View(r), AppRouterObject, Append(AuthRoute))
  {
    AuthRouterImportsKeepCode(prog);
    ImportThenAppend(prog, AuthRouterImports, AppRouterObject, AuthRoute)
  }

  /** Append the `getAll` procedure as the last property of the first object
      literal inside the `exampleRouter` declarator; no import is added. */
  function ExampleRouterTransform(prog: Program): (r: Program)
    ensures SameImports(prog.body, r.body)
    ensures First(View(prog), ExampleRouterObject).None? ==> r == prog
    ensures EditedFirst(View(prog), View(r), ExampleRouterObject, Append(GetAll))
  {
    EditFirst(prog, ExampleRouterObject, Append(GetAll))
  }

  /** The callback of the context file's `transformFile`: auth first, then prisma. */
  function ContextCallback(usingAuth: bool, usingPrisma: bool, prog: Program): Program {
    var afterAuth := if usingAuth then ContextAuthTransform(prog) else prog;
    if usingPrisma then ContextPrismaTransform(afterAuth) else afterAuth
  }

  // ---------------------------------------------------------------------
  // Properties of the codemods

  lemma NameFindsNothing(name: string, s: Shape)
    ensures Find(Name(name), s) == []
  {
  }

  /** A property whose value is a plain name holds nothing but identifiers. */
  lemma NamePropertyInert(shorthand: bool, key: string, value: string, s: Shape)
    requires !s.AnyIdent?
    ensures
      var x := Node(Property(shorthand), [Name(key), Name(value)]);
      !Matches(x, s) && Find(x, s) == []
  {
    var x := Node(Property(shorthand), [Name(key), Name(value)]);
    NameFindsNothing(key, s);
    NameFindsNothing(value, s);
    assert FindKids(x.kids, s, 2) == [];
    assert FindKids(x.kids, s, 1) == [];
  }

  /** No shape of the object locators looks for what the codemods append. */
  lemma ShorthandInert(name: string, q: seq<Shape>)
    requires forall i | 0 <= i < |q| :: !q[i].AnyIdent?
    ensures Inert(Shorthand(name), q)
  {
    forall i | 0 <= i < |q|
      ensures !Matches(Shorthand(name), q[i]) && Find(Shorthand(name), q[i]) == []
    {
      NamePropertyInert(true, name, name, q[i]);
    }
  }

  lemma ContextObjectInert(name: string)
    ensures Inert(Shorthand(name), ContextObject)
  {
    assert forall i | 0 <= i < |ContextObject| :: !ContextObject[i].AnyIdent?;
    ShorthandInert(name, ContextObject);
  }

  /** Appending a context property leaves the context object where the
      locator finds it. */
  lemma ContextPropertyKeepsTarget(prog: Program, name: string)
    requires First(View(prog), ContextObject).Some?
    ensures
      var r := WithContextProperty(prog, name);
      First(View(r), ContextObject) == First(View(prog), ContextObject)
  {
    var po := First(View(prog), ContextObject).value;
    assert ContextObject[|ContextObject| - 1] == AnyObject;
    var r := WithContextProperty(prog, name);
    assert View(r) == Update(View(prog), po, Append(Shorthand(name)));
    ContextObjectInert(name);
    FirstAppendInert(View(prog), po, Shorthand(name), ContextObject);
  }

  /** The prisma step on a file whose context object is at `po`. */
  lemma PrismaStepAt(prog: Program, po: Path)
    requires First(View(prog), ContextObject) == Some(po)
    ensures
      var r := ContextPrismaTransform(prog);
      && ValidPath(View(r), po)
      && Get(View(r), po).kids == Get(View(prog), po).kids + [Shorthand("prisma")]
  {
    PrismaImportsKeepCode(prog);
    assert ContextObject[|ContextObject| - 1] == AnyObject;
  }

  /** The session step on a file whose context object is at `po`. */
  lemma SessionStepAt(mid: Program, po: Path)
    requires First(View(mid), ContextObject) == Some(po)
    ensures
      var r := WithContextProperty(mid, "session");
      && First(View(r), ContextObject) == Some(po)
      && Get(View(r), po).kids == Get(View(mid), po).kids + [Shorthand("session")]
  {
    ContextPropertyKeepsTarget(mid, "session");
    assert ContextObject[|ContextObject| - 1] == AnyObject;
  }

  /** With both auth and prisma, the context object gains `session` and
      then `prisma`, in that order, as its two last properties: the second
      locator run still finds the object the first one extended. */
  lemma {:induction false} ContextSessionThenPrisma(prog: Program)
    ensures
      var mid := WithSessionFetch(AddImports(prog, AuthImports));
      var r := ContextCallback(true, true, prog);
      First(View(mid), ContextObject).Some? ==>
        var po := First(View(mid), ContextObject).value;
        && ValidPath(View(r), po)
        && Get(View(r), po).kids == Get(View(mid), po).kids + [Shorthand("session"), Shorthand("prisma")]
  {
    var mid := WithSessionFetch(AddImports(prog, AuthImports));
    if First(View(mid), ContextObject).Some? {
      CallbackBoth(prog);
      PropertiesAt(mid, First(View(mid), ContextObject).value);
    }
  }

  /** With both auth and prisma, when the context object is not found after
      the session fetch, neither property is added: the result is that file
      with the prisma import. */
  lemma ContextObjectMissBoth(prog: Program)
    ensures
      var mid := WithSessionFetch(AddImports(prog, AuthImports));
      First(View(mid), ContextObject).None? ==>
        ContextCallback(true, true, prog) == AddImports(mid, PrismaImports)
  {
    var mid := WithSessionFetch(AddImports(prog, AuthImports));
    if First(View(mid), ContextObject).None? {
      CallbackBoth(prog);
      PropertyMissKeeps(mid, "session");
      PrismaMiss(mid);
    }
  }

  /** The session step, then the prisma step, on a file whose context
      object is at `po`. */
  lemma PropertiesAt(mid: Program, po: Path)
    requires First(View(mid), ContextObject) == Some(po)
    ensures
      var r := ContextPrismaTransform(WithContextProperty(mid, "session"));
      && ValidPath(View(r), po)
      && Get(View(r), po).kids == Get(View(mid), po).kids + [Shorthand("session"), Shorthand("prisma")]
  {
    var a1 := WithContextProperty(mid, "session");
    SessionStepAt(mid, po);
    PrismaStepAt(a1, po);
    SnocSnoc(Get(View(mid), po).kids, Shorthand("session"), Shorthand("prisma"));
  }

  lemma SnocSnoc(xs: seq<Node>, a: Node, b: Node)
    ensures xs + [a] + [b] == xs + [a, b]
  {
  }

  lemma CallbackBoth(prog: Program)
    ensures ContextCallback(true, true, prog)
      == ContextPrismaTransform(WithContextProperty(WithSessionFetch(AddImports(prog, AuthImports)), "session"))
  {
  }

  /** With both auth and prisma, the three imports sit together after the
      file's last import: the two auth imports first, then the prisma one. */
  lemma ContextImportsInOrder(prog: Program)
    ensures
      var k := InsertionPoint(prog.body);
      var r := ContextCallback(true, true, prog);
      && k + 3 <= |r.body|
      && r.body[k..k + 3] == AuthImports + PrismaImports
  {
    CallbackBoth(prog);
    AuthKeepsImports(prog);
    PrismaImportsAfter(prog, ContextAuthTransform(prog));
  }

  /** The auth transform rewrites code only, once its imports are in. */
  lemma AuthKeepsImports(prog: Program)
    ensures SameImports(AddImports(prog, AuthImports).body, ContextAuthTransform(prog).body)
  {
    var b1 := AddImports(prog, AuthImports);
    SameImportsTrans(b1.body, WithSessionFetch(b1).body, ContextAuthTransform(prog).body);
  }

  lemma PrismaImportsAfter(prog: Program, a: Program)
    requires SameImports(AddImports(prog, AuthImports).body, a.body)
    ensures
      var k := InsertionPoint(prog.body);
      var r := ContextPrismaTransform(a);
      && k + 3 <= |r.body|
      && r.body[k..k + 3] == AuthImports + PrismaImports
  {
    ContextImportsAreImports();
    TwoBlocksKept(prog, AuthImports, a, PrismaImports, ContextPrismaTransform(a));
  }

  lemma ContextImportsAreImports()
    ensures AllImports(AuthImports) && |AuthImports| == 2
    ensures AllImports(PrismaImports) && |PrismaImports| == 1
  {
  }

  /** Without a `createContext` declarator neither context locator finds
      anything. */
  lemma NoContextNoHit(n: Node)
    requires Find(n, DeclaratorNamed("createContext")) == []
    ensures First(n, ContextBlock).None? && First(n, ContextObject).None?
  {
    assert ContextBlock[0] == DeclaratorNamed("createContext");
    assert ContextObject[0] == DeclaratorNamed("createContext");
  }

  /** The imports are added whatever the locators find: a file without a
      `createContext` declarator gets the imports and nothing else. */
  lemma {:induction false} ContextMissAddsImportsOnly(usingAuth: bool, usingPrisma: bool, prog: Program)
    requires Find(View(prog), DeclaratorNamed("createContext")) == []
    ensures
      var afterAuth := if usingAuth then AddImports(prog, AuthImports) else prog;
      ContextCallback(usingAuth, usingPrisma, prog)
        == (if usingPrisma then AddImports(afterAuth, PrismaImports) else afterAuth)
  {
    var afterAuth := if usingAuth then AddImports(prog, AuthImports) else prog;
    AuthImportsKeepCode(prog);
    NoContextNoHit(View(prog));
    if usingAuth {
      AuthMiss(prog);
    }
    if usingPrisma {
      PrismaMiss(afterAuth);
    }
  }

  lemma AuthMiss(prog: Program)
    requires First(View(prog), ContextBlock).None? && First(View(prog), ContextObject).None?
    ensures ContextAuthTransform(prog) == AddImports(prog, AuthImports)
  {
    AuthImportsKeepCode(prog);
    ContextMissKeeps(prog, AddImports(prog, AuthImports));
  }

  /** Both context locators miss: the two edits leave the file alone. */
  lemma ContextMissKeeps(prog: Program, a: Program)
    requires View(a) == View(prog)
    requires First(View(prog), ContextBlock).None? && First(View(prog), ContextObject).None?
    ensures SessionEdits(a) == a
  {
  }

  lemma PrismaMiss(prog: Program)
    requires First(View(prog), ContextObject).None?
    ensures ContextPrismaTransform(prog) == AddImports(prog, PrismaImports)
  {
    var a := AddImports(prog, PrismaImports);
    PrismaImportsKeepCode(prog);
    PropertyMissKeeps(a, "prisma");
  }

  lemma PropertyMissKeeps(prog: Program, name: string)
    requires First(View(prog), ContextObject).None?
    ensures WithContextProperty(prog, name) == prog
  {
  }

  // ---------------------------------------------------------------------
  // Properties of the plan

  /** The auth router is copied exactly when NextAuth is selected. */
  lemma AuthRouterIffNextAuth(usingAuth: bool)
    ensures (exists c | c in Copies(usingAuth) :: c.dest == AuthRouterDest) <==> usingAuth
  {
    var cs := Copies(usingAuth);
    assert forall i | 0 <= i < 6 :: |cs[i].dest| != |AuthRouterDest|;
    if usingAuth {
      assert cs[6].dest == AuthRouterDest;
    }
  }

  /** The server utilities are copied once, from the session-aware asset
      exactly when NextAuth is selected. */
  lemma ServerUtilsCopiedOnce(usingAuth: bool)
    ensures Copies(usingAuth)[2] == Copy(AssetDir + ServerUtilFile(usingAuth), ServerUtilsDest)
    ensures forall i | 0 <= i < |Copies(usingAuth)| && i != 2 :: Copies(usingAuth)[i].dest != ServerUtilsDest
  {
    var cs := Copies(usingAuth);
    assert forall i | 0 <= i < |cs| && i != 2 :: |cs[i].dest| != |ServerUtilsDest|;
  }

  /** The router codemods run exactly when their package is selected; the
      context codemod always runs. */
  lemma JobsIff(usingAuth: bool, usingPrisma: bool)
    ensures Jobs(usingAuth, usingPrisma)[0] == FileJob(ContextDest, TrpcContext(usingAuth, usingPrisma))
    ensures FileJob(IndexRouterDest, TrpcIndexRouter) in Jobs(usingAuth, usingPrisma) <==> usingAuth
    ensures FileJob(ExampleRouterDest, TrpcExampleRouter) in Jobs(usingAuth, usingPrisma) <==> usingPrisma
  {
  }

  /** Every file the installer transforms is one it copies. */
  lemma JobsHaveCopies(packages: Packages)
    ensures JobsTargetCopies(Installer(packages))
  {
    var ds := Dests(Copies(packages.nextAuth));
    assert ds[3] == ContextDest && ds[4] == IndexRouterDest && ds[5] == ExampleRouterDest;
  }

  /** No two copies share a destination, so the concurrent copies cannot
      race, and no file is transformed twice. */
  lemma CopiesAndJobsDistinct(packages: Packages)
    ensures DistinctDests(Installer(packages).copies)
    ensures OneJobPerFile(Installer(packages).jobs)
  {
    DistinctByLength(Copies(packages.nextAuth));
    JobsDistinctByLength(Jobs(packages.nextAuth, packages.prisma));
  }
}
